=== FILE: README.md ===
# EIA daily energy price dashboard: a Dafny model of its core

This project models the logic core of a small dashboard. The dashboard fetches
daily energy price series (crude oil, gasoline, diesel, heating oil, natural
gas, propane) from the U.S. Energy Information Administration's API v2 and
shows them as statistics and a data table. The model covers two source files.

`eia_client.py` (`EIAClient`):
- the series registry (`SERIES_MAP`) and `get_available_series`;
- the API-key check at construction;
- the request that `get_series_data` builds;
- its three-attempt retry loop with exponential backoff;
- the normalisation of a response into a `(date, value)` table;
- the name lookup of `get_price_data`;
- the sequential batch fetch of `get_multiple_series`.

`app.py`:
- `calculate_statistics`;
- the date-range presets;
- the per-selection cache of rejected frequencies;
- the stacking and pivoting of the "Raw Data" table.

The network is a parameter. Each request's attempts are answered by a
`Retry.Script`, which gives the outcome each of the three possible attempts
would have. Sleeping becomes a list of recorded waits. "Now" is a `today`
parameter. Dates are day numbers. Prices are exact reals.

Modules:
- `Wrappers`: `Option` and `Result`.
- `Sorting`: a generic insertion sort with a proof that its result is unique, and duplicate removal.
- `Text`: Python string order, `str.lower` and the `in` substring test.
- `Registry`: the registry.
- `Retry`: the retry loop.
- `Normalize`: response to table.
- `EiaClient`: the client.
- `Statistics`: `calculate_statistics`.
- `DateRange`: the presets.
- `FrequencyCache`: the rejected-frequency cache.
- `Pivot`: the data table.

Notes on what the code does, where its own comments or tests suggest
otherwise:
- **Duplicate dates.** Normalisation keeps every record as a row, so two records with the same date both stay (eia_client.py:163-167, `Normalize.DuplicateDatesAreKept`).
- **Backoff waits.** The comments at eia_client.py:173 and 187 say the waits are 1 s, 2 s and 4 s. Only 1 s and 2 s are ever slept, because the third failure is re-raised without sleeping (`Retry.WaitsAreBounded`).
- **Sort direction.** The request header asks for `period` descending (eia_client.py:132-137). The client then sorts the rows ascending itself (eia_client.py:167).
- **Failures without a response.** test_dashboard.py:100-113 expects an empty table when `requests.get` raises a `RequestException` that carries no response. The handler at eia_client.py:181 reads `e.response.status_code` from such an exception, which fails. That path is outside the model (see "Left out").

## Model

| member | source | states |
|---|---|---|
| Registry.Find | eia_client.py:215-218 | The entry for a name is found exactly when the name is registered, and it is an entry under that name |
| Registry.FindFirst | eia_client.py:215-218 | With distinct names, looking up the i-th entry's name returns that entry |
| Registry.AvailableSeries | eia_client.py:253-256 | The registry has 8 entries with distinct names, including WTI and Brent. Every entry has all fields non-empty and a default frequency the dashboard offers, and looking up its name finds it |
| Registry.RegistryIsWellFormed | eia_client.py:27-76 | Every entry is fully populated with an offered frequency, the names are distinct, and each name looks up its own entry |
| Registry.BenchmarksRegistered | eia_client.py:27-76 | The WTI and Brent spot price series are registered |
| Registry.LookupFindsEveryEntry | eia_client.py:215-218 | Looking up any registered entry's name returns that entry |
| Registry.EntriesWellFormed | eia_client.py:27-76 | Every entry has a non-empty name, route, id, frequency and description, and its frequency is one the dashboard offers |
| Registry.NamesDistinct | eia_client.py:27-76 | No two entries share a name |
| Registry.RegistryNames | eia_client.py:27-76 | The registered names, in declaration order |
| EiaClient.NewClient | eia_client.py:85-91 | Construction succeeds exactly when the explicit key or the environment key is non-empty, and the explicit key wins. Otherwise it fails with a configuration error whose message starts "EIA API key is required" |
| EiaClient.RouteRoundTrip | eia_client.py:121 | The route can be recovered from the data URL built from it |
| EiaClient.BuildRequest | eia_client.py:114-144 | The request targets the route's data URL. It asks for the value column of the one series at the given frequency, sorted by period newest first, first page of 5000, timeout 180 s. Missing dates default to today and 90 days before |
| EiaClient.DefaultWindow | eia_client.py:115-118 | With no dates the window ends today and spans 90 days |
| EiaClient.GetSeriesData | eia_client.py:93-193 | The request is the one built for the route and series. Its frequency is "daily" when the caller passes none and otherwise the caller's, even if empty. One to three attempts: every attempt before the last was retryable (a timeout or a non-400 error), and fewer than three means the last was not. Waits are [1, 2] cut to the attempts made. Success happens exactly when the last attempt delivered, and then returns that response normalised. Otherwise it raises that attempt's settled failure |
| EiaClient.ResolvedFrequencyIsOffered | eia_client.py:218-227 | For a registered series, a caller's frequency that is absent, empty or one of the dashboard's options becomes a frequency the dashboard offers. An absent or empty one is replaced by the series' registry default |
| EiaClient.GetPriceData | eia_client.py:215-227 | An unregistered name fails with an "Unknown series: <name>" error and no request. A registered one is exactly the series fetch with its route, id and resolved frequency |
| EiaClient.PriceRequestFields | eia_client.py:218-227 | A registered series' request uses its registry route and id. Its frequency is the caller's when non-empty, else the registry default |
| EiaClient.CollectLastWrites | eia_client.py:248-250 | Storing the tables of the first i successful calls in order leaves exactly the names fetched so far as keys. Each holds the table of its last occurrence |
| EiaClient.CallEach | eia_client.py:248-251 | Calls each name in order and stops at the first failure, which it raises. On success the dict's keys are the names, and a repeated name keeps its last table |
| EiaClient.GetMultipleSeries | eia_client.py:229-251 | The i-th call is `get_price_data` of the i-th name. The first failure aborts the batch. Otherwise every name maps to its table, a repeated name keeping its last fetch |
| Retry.RunFrom | eia_client.py:147-193 | Attempts continue exactly while they are retryable (a timeout, or an error whose status is not 400) and attempts remain. The last attempt settles the result, and the wait before attempt k+1 is 2^k |
| Retry.Run | eia_client.py:147-193 | Between one and three attempts. Every attempt before the last is retryable, and fewer than three attempts means the last was not. Waits are [1, 2] cut to the attempts made, and the result is the last attempt's settlement |
| Retry.Settle | eia_client.py:169-193 | A delivered attempt returns its payload. A timeout re-raises itself. A 400 becomes the bad-request error "Bad request to EIA API: <body>". Any other status re-raises the original error. A retryable attempt never settles as a success or a bad request |
| Retry.WaitsAreBounded | eia_client.py:171-193 | At most 3 s are slept in total and never a 4 s wait |
| Retry.FirstDecisiveAttemptSettles | eia_client.py:147-193 | The attempt count is exactly one past the first non-retryable attempt, or 3. That attempt settles the call |
| Retry.BadRequestIsNotRetried | eia_client.py:180-184 | A 400 is raised at once as "Bad request to EIA API: <body>", with no further attempt or wait |
| Retry.TwoTimeoutsThenSuccess | eia_client.py:171-176 | Two timeouts then a success: three attempts, waits 1 s and 2 s, success |
| Retry.ThreeTimeoutsExhaust | eia_client.py:171-179 | Three timeouts: the third is raised after waits of 1 s and 2 s |
| Normalize.NormalizeResponse | eia_client.py:155-169 | No `response`, no `data` or an empty record list gives the empty table. Otherwise the rows are a permutation of the coerced records, one row per record, in ascending date order |
| Normalize.RecordsAreKept | eia_client.py:163-167 | Every record appears as a row, and a non-numeric value becomes a missing value rather than a dropped row. Every row comes from a record |
| Normalize.DuplicateDatesAreKept | eia_client.py:163-167 | Two records with the same date both survive, and identical ones appear twice |
| Normalize.TwoRecordExample | eia_client.py:163-169 | Two records on consecutive days give two rows, the earlier with 75.50 first |
| Normalize.EmptyDataExample | eia_client.py:158-160 | An empty record list is the empty table |
| Statistics.Min | app.py:136 | The minimum is one of the values and no value is below it |
| Statistics.Max | app.py:137 | The maximum is one of the values and no value is above it |
| Statistics.Mean | app.py:138 | The mean times the count is the sum |
| Statistics.MeanBetween | app.py:138 | An average of values within [lo, hi] lies within [lo, hi] |
| Statistics.PercentChange | app.py:128-133 | No percent change exactly when the first value is within 1e-9 of zero. Otherwise the percent times the first value is 100 times the change |
| Statistics.CalculateStatistics | app.py:119-141 | None exactly for an empty series. Otherwise: current is the last value; change is last minus first; min and max are attained values bounding all values; min ≤ current ≤ max; the mean lies between min and max; the percent change follows the epsilon rule |
| Statistics.TenDayExample | app.py:119-141 | The ten-day series 100…118 gives current 118, min 100, max 118, mean 109.1, change 18 and an 18 % change |
| Statistics.ZeroStartExample | app.py:128-131 | A series starting at 0 has no percent change, while its change is still reported |
| DateRange.PresetOf | app.py:195-210 | A fixed preset is chosen only by its own label, and any label that names no fixed preset falls to the custom range |
| DateRange.LabelRoundTrip | app.py:189-210 | Every offered label selects the preset it names |
| DateRange.Select | app.py:195-230 | A fixed preset ends today and spans 7, 30, 90, 180 or 365 days. The custom range is the two picked dates |
| DateRange.PresetsAreNested | app.py:195-209 | In display order, the fixed presets share their end and start strictly earlier |
| DateRange.CustomDefaults | app.py:213-226 | The custom pickers open on the same window as the 90-day preset |
| DateRange.NinetyDaysIsClientDefault | app.py:201-203 | The 90-day preset requests the same window the client uses when given no dates |
| FrequencyCache.KeyOf | app.py:247 | The key is the selection sorted in string order, as a permutation of it |
| FrequencyCache.KeyIgnoresSelectionOrder | app.py:247 | Two selections share a key exactly when they hold the same names the same number of times |
| FrequencyCache.Without | app.py:253 | An option is kept exactly when it is not disabled |
| FrequencyCache.WithoutNothing | app.py:253 | With nothing recorded, every option is offered in order |
| FrequencyCache.WithoutKeepsOrder | app.py:253 | The kept options stay in their original order |
| FrequencyCache.AvailableFrequencies | app.py:251-264 | The offer is never empty and always keeps the fixed option order, so the picker's default is the first offered option. While some option is not recorded, it is exactly the unrecorded options in order and the cache is unchanged. Once all are recorded, all are offered again and the key's record is cleared |
| FrequencyCache.IsBadRequestMessage | app.py:278-280 | A failure counts as a bad request exactly when "400" occurs in its message or "bad request" occurs in the lower-cased message |
| FrequencyCache.RecordFailure | app.py:277-284 | A bad-request-looking failure adds the frequency to the selection's record. Any other failure changes nothing. No other key is touched |
| FrequencyCache.RecordedFrequencyIsHidden | app.py:251-284 | After a recorded failure, the same selection in any order no longer offers that frequency, unless every option is now recorded (then the offer resets) |
| FrequencyCache.OtherSelectionsUnaffected | app.py:247-284 | A failure recorded for one selection never changes what a different selection is offered |
| FrequencyCache.BadRequestMessageIsRecognised | app.py:278-280 | Any message starting with the client's "Bad request to EIA API: " prefix passes the handler's test |
| FrequencyCache.BadRequestErrorsAreRecorded | app.py:278-280 | The client's error for a 400 response passes the handler's "400"/"bad request" test, whatever the response body |
| Pivot.Combine | app.py:381-388 | A stacked row exists exactly when its series is selected and its date and value are a row of that series' table. The stack is empty exactly when every selected table is |
| Pivot.FirstValueIsFirstMatch | app.py:392-397 | The aggregated value of a (date, series) group is the value of its earliest row that has one, and is absent exactly when no row of the group has one |
| Pivot.FirstInTable | app.py:392-397 | A single table has no first value on a date exactly when none of its rows on that date has a value. Otherwise the value is that of a row on the date with a value and no such row before it |
| Pivot.CellComesFromOwnTable | app.py:383-397 | A group's first value in the stack is the first value its own series' table has for that date, whatever the selection order or repeats |
| Pivot.FirstValueOfPresent | app.py:392-397 | Dropping rows without a value changes no group's first value |
| Pivot.Columns | app.py:392-397 | The columns are the series with some value, in string order, each once |
| Pivot.RowDates | app.py:392-398 | The lines are the dates with some value, strictly newest first |
| Pivot.SameFirstValuesSameRow | app.py:392-397 | A pivot line depends on the stacked rows only through the groups' first values |
| Pivot.Lines | app.py:392-398 | One line per index date, in the index's order, each built from that date's groups |
| Pivot.MakeRow | app.py:392-397 | A cell is present exactly when its group has a value, and holds the group's first value |
| Pivot.PivotRows | app.py:392-398 | Columns: the series with a value, sorted and distinct. Lines: the dates with a value, strictly descending. Cells: present exactly for groups with a value, holding the first value |
| Pivot.PivotIgnoresMissing | app.py:392-397 | Pivoting only the rows with values gives the same table |
| Pivot.DataTable | app.py:381-415 | No table exactly when every selected series' table is empty, otherwise the pivot of the stacked tables |
| Pivot.DataTableCells | app.py:383-398 | Each cell holds the first value its own series' table has for the line's date, and every such value has its cell |
| Pivot.DuplicateDateExample | app.py:392-398 | Two WTI prices on one day and one the next give exactly two lines: the later day on top, then the repeated day with its first price |
| Sorting.SortBy | app.py:247 | Sorting permutes its input |
| Sorting.SortByIsSorted | app.py:247 | Under a total, transitive order the sorted result is in order |
| Sorting.SortedDistinct | app.py:392-398 | The result is sorted, holds no value twice, and holds exactly the input's values |
| Sorting.SortedIsUnique | app.py:247 | Under an antisymmetric order, two sorted permutations of the same values are equal |
| Text.StrLeIsTotalOrder | app.py:247 | Python's string comparison is a total order |
| Text.ContainsIffOccurs | app.py:280 | The substring test holds exactly when the needle occurs at some position |

## Left out

- HTTP, JSON decoding, `print`, `time.sleep`, logging, `load_dotenv` and the environment: the network is a script of attempt outcomes, the environment key a parameter, sleeps a list of waits.
- A transport failure with no response (a connection error): the source dereferences `e.response.status_code` on it and crashes with an attribute error; the model's attempts always carry a status or are timeouts.
- The text of `requests`' own exception messages is a parameter (`message`) of each attempt outcome, not derived from the HTTP status.
- `pd.to_datetime` and `strftime`: dates are day numbers; period strings and their parsing are not modelled, nor is the time of day `datetime.now()` carries.
- `pd.to_numeric` on strings: a value arrives already classified as numeric, other text or null.
- Statistics over a column holding missing values (pandas skips NaN in min/max/mean): `Statistics.CalculateStatistics` takes a series of present values.
- Floating point: prices are exact reals, so rounding in the mean and the percent change is not modelled.
- `Normalize.NormalizeResponse`: pandas' default sort is not stable, so the contract fixes only sortedness and the multiset of rows, not the relative order of rows sharing a date.
- `Text.Lower` lower-cases ASCII letters only; Python's `str.lower` also folds other scripts, which cannot affect the "bad request" test on ASCII text.
- The "Available: [...]" list in the unknown-series message is rendered without Python's escaping of quote characters.
- The Streamlit page, Plotly charts, the CSV download, the `disabled_frequencies` session value (set and never read), `get_eia_client`'s error display, `demo.py` and `test_components.py`.
- `DateRange.Select`: the date pickers' cap at today is the widget's and is not enforced; the dashboard does not check that the custom start precedes the end, and neither does the model.

=== FILE: date_range.dfy ===
/** The sidebar's date range: five presets ending today and a custom range
    read from two date pickers. Dates are day numbers; the time of day that
    `datetime.now()` carries does not survive the `%Y-%m-%d` formatting the
    range is sent in, so it is not modelled. */
module DateRange {
  import opened Wrappers
  import EiaClient
  import opened Normalize

  datatype Preset = Last7Days | Last30Days | Last90Days | Last6Months | LastYear | Custom

  /** The selectbox choices, in display order. */
  const PresetLabels: seq<string> :=
    ["Last 7 Days", "Last 30 Days", "Last 90 Days", "Last 6 Months", "Last Year", "Custom"]

  function Label(p: Preset): string {
    match p
    case Last7Days => "Last 7 Days"
    case Last30Days => "Last 30 Days"
    case Last90Days => "Last 90 Days"
    case Last6Months => "Last 6 Months"
    case LastYear => "Last Year"
    case Custom => "Custom"
  }

  /** The `if`/`elif` chain on the chosen label: any label that is not one
      of the five fixed presets falls to the custom branch. */
  function PresetOf(choice: string): (p: Preset)
    ensures p != Custom ==> Label(p) == choice
    ensures p == Custom <==> forall q :: q != Custom ==> Label(q) != choice
  {
    if choice == "Last 7 Days" then Last7Days
    else if choice == "Last 30 Days" then Last30Days
    else if choice == "Last 90 Days" then Last90Days
    else if choice == "Last 6 Months" then Last6Months
    else if choice == "Last Year" then LastYear
    else Custom
  }

  /** Every choice the selectbox offers selects the preset it names. */
  lemma LabelRoundTrip(p: Preset)
    ensures Label(p) in PresetLabels
    ensures PresetOf(Label(p)) == p
  {
  }

  /** The length in days of a fixed preset's window. */
  function Days(p: Preset): (n: nat)
    requires p != Custom
    ensures n >= 7
  {
    match p
    case Last7Days => 7
    case Last30Days => 30
    case Last90Days => 90
    case Last6Months => 180
    case LastYear => 365
  }

  datatype Window = Window(start: Date, end: Date)

  /** The window the dashboard requests. A fixed preset ends today and
      starts its day count earlier; the custom choice takes the two pickers'
      dates as they are (the pickers cap each at today, and nothing orders
      them). */
  function Select(p: Preset, today: Date, pickedStart: Date, pickedEnd: Date): (w: Window)
    ensures p != Custom ==> w.end == today && w.start < w.end && w.end - w.start == Days(p)
    ensures p == Custom ==> w == Window(pickedStart, pickedEnd)
  {
    if p == Custom then Window(pickedStart, pickedEnd)
    else Window(today - Days(p), today)
  }

  /** The fixed presets, in display order, give ever longer windows. */
  lemma PresetsAreNested(today: Date, a: nat, b: nat)
    requires a < b < 5
    ensures var p, q := PresetOf(PresetLabels[a]), PresetOf(PresetLabels[b]);
      p != Custom && q != Custom &&
      Select(q, today, 0, 0).start < Select(p, today, 0, 0).start &&
      Select(p, today, 0, 0).end == Select(q, today, 0, 0).end
  {
  }

  /** The custom pickers open on the 90 days ending today. */
  function CustomDefaults(today: Date): (w: Window)
    ensures w == Select(Last90Days, today, w.start, w.end)
  {
    Window(today - 90, today)
  }

  /** The 90-day preset asks for the same window the client uses when it is
      given no dates. */
  lemma NinetyDaysIsClientDefault(c: EiaClient.Client, route: string, series: string,
                                  frequency: string, today: Date)
    ensures var w := Select(Last90Days, today, 0, 0);
      var q := EiaClient.BuildRequest(c, route, series, None, None, frequency, today);
      w.start == q.start && w.end == q.end
  {
  }
}

=== FILE: eia_client.dfy ===
/** `EIAClient`: key check at construction, request construction, the
    fetch of one series (retry loop + normalisation), named-series lookup and
    the sequential batch fetch. The network is a parameter: each request's
    attempts are answered by a `Retry.Script`. */
module EiaClient {
  import opened Wrappers
  import Registry
  import Retry
  import Text
  import opened Normalize

  const BaseUrl: string := "https://api.eia.gov/v2"
  const DefaultWindowDays: nat := 90
  const PageLength: nat := 5000
  /** `get_series_data`'s frequency when the caller passes none. */
  const SeriesDataFrequency: string := "daily"
  const KeyRequired: string := "EIA API key is required"
  const MissingKeyMessage: string :=
    KeyRequired + ". Set EIA_API_KEY environment variable " +
    "or pass api_key parameter. Get your free key at " +
    "https://www.eia.gov/opendata/register.php"

  datatype Client = Client(apiKey: string)

  /** The exceptions the client raises. */
  datatype ClientError =
    | ConfigurationError(message: string)
    | UnknownSeries(message: string)
    | FetchFailed(cause: Retry.FetchError)

  /** `str(e)` of the exception. */
  function Message(e: ClientError): string {
    match e
    case ConfigurationError(m) => m
    case UnknownSeries(m) => m
    case FetchFailed(f) => f.message
  }

  /** Python truthiness of an optional string: present and non-empty. */
  predicate Truthy(s: Option<string>) {
    s.Some? && s.value != ""
  }

  /** `EIAClient(api_key)` with the `EIA_API_KEY` environment value passed in:
      an explicit non-empty key wins, else the environment's; neither gives
      the configuration error. */
  function NewClient(apiKey: Option<string>, envKey: Option<string>): (r: Result<Client, ClientError>)
    ensures r.Ok? <==> Truthy(apiKey) || Truthy(envKey)
    ensures r.Ok? ==> r.value.apiKey != ""
    ensures Truthy(apiKey) ==> r == Ok(Client(apiKey.value))
    ensures !Truthy(apiKey) && Truthy(envKey) ==> r == Ok(Client(envKey.value))
    ensures r.Err? ==>
      r.error.ConfigurationError? && Text.StartsWith(Message(r.error), KeyRequired)
  {
    var key := if Truthy(apiKey) then apiKey else envKey;
    if Truthy(key) then Ok(Client(key.value))
    else
      assert MissingKeyMessage[..|KeyRequired|] == KeyRequired;
      Err(ConfigurationError(MissingKeyMessage))
  }

  datatype SortSpec = SortSpec(column: string, direction: string)

  /** One outbound request: the URL, the `api_key` query parameter, the
      fields of the JSON `X-Params` header and the timeout. */
  datatype Request = Request(
    url: string,
    apiKey: string,
    frequency: string,
    data: seq<string>,
    facetSeries: seq<string>,
    start: Date,
    end: Date,
    sort: seq<SortSpec>,
    offset: nat,
    length: nat,
    timeout: nat)

  function DataUrl(route: string): string {
    BaseUrl + "/" + route + "/data/"
  }

  /** Recovers the route from a data URL, or None for any other URL. */
  function RouteOf(url: string): Option<string> {
    var prefix := BaseUrl + "/";
    var suffix := "/data/";
    if |url| >= |prefix| + |suffix| && url[..|prefix|] == prefix && url[|url| - |suffix|..] == suffix
    then Some(url[|prefix|..|url| - |suffix|])
    else None
  }

  lemma RouteRoundTrip(route: string)
    ensures RouteOf(DataUrl(route)) == Some(route)
  {
    var url := DataUrl(route);
    var prefix := BaseUrl + "/";
    assert url == prefix + route + "/data/";
    assert url[..|prefix|] == prefix;
    assert url[|url| - 6..] == "/data/";
    assert url[|prefix|..|url| - 6] == route;
  }

  /** The request `get_series_data` sends: the route's data URL, the series as
      the only facet, the value column only, newest period first, the first
      page of 5000 rows, and a date window that defaults to the 90 days up
      to today. */
  function BuildRequest(c: Client, route: string, series: string, start: Option<Date>,
                        end: Option<Date>, frequency: string, today: Date): (q: Request)
    ensures RouteOf(q.url) == Some(route)
    ensures q.apiKey == c.apiKey && q.frequency == frequency
    ensures q.data == ["value"] && q.facetSeries == [series]
    ensures q.sort == [SortSpec("period", "desc")]
    ensures q.offset == 0 && q.length == PageLength && q.timeout == Retry.TimeoutSeconds
    ensures q.end == (if end.Some? then end.value else today)
    ensures q.start == (if start.Some? then start.value else today - DefaultWindowDays)
  {
    RouteRoundTrip(route);
    var endDate := if end.Some? then end.value else today;
    var startDate := if start.Some? then start.value else today - DefaultWindowDays;
    Request(DataUrl(route), c.apiKey, frequency, ["value"], [series], startDate, endDate,
            [SortSpec("period", "desc")], 0, PageLength, Retry.TimeoutSeconds)
  }

  /** With no dates given the window is the 90 days ending today. */
  lemma DefaultWindow(c: Client, route: string, series: string, frequency: string, today: Date)
    ensures BuildRequest(c, route, series, None, None, frequency, today).end == today
    ensures BuildRequest(c, route, series, None, None, frequency, today).end -
            BuildRequest(c, route, series, None, None, frequency, today).start == 90
  {
  }

  /** One client call: the request it sent (None when it sent none), the
      number of HTTP attempts, the seconds slept, and what it returned or raised. */
  datatype Call = Call(request: Option<Request>, attempts: nat, waits: seq<nat>,
                       result: Result<Table, ClientError>)

  /** `get_series_data`: one request retried per the retry policy (every
      attempt before the last was a timeout or a non-400 error, and fewer than
      three attempts means the last one was decisive); a delivered response is
      normalised, a failure is raised as the client's error. An omitted
      frequency (None) is the parameter's default, "daily"; a given one,
      even empty, is sent as it is. */
  function GetSeriesData(c: Client, route: string, series: string, start: Option<Date>,
                         end: Option<Date>, frequency: Option<string>, today: Date,
                         script: Retry.Script<Envelope>): (call: Call)
    ensures call.request.Some?
    ensures frequency.None? ==> call.request.value.frequency == "daily"
    ensures frequency.Some? ==> call.request.value.frequency == frequency.value
    ensures call.request == Some(BuildRequest(c, route, series, start, end,
                                              call.request.value.frequency, today))
    ensures 1 <= call.attempts <= Retry.MaxRetries
    ensures forall k :: 0 <= k < call.attempts - 1 ==> Retry.Retryable(script.At(k))
    ensures call.attempts < Retry.MaxRetries ==> !Retry.Retryable(script.At(call.attempts - 1))
    ensures call.waits == [1, 2][..call.attempts - 1]
    ensures call.result.Ok? <==> script.At(call.attempts - 1).Delivered?
    ensures call.result.Ok? ==>
      call.result.value == NormalizeResponse(script.At(call.attempts - 1).payload)
    ensures call.result.Err? ==>
      call.result.error.FetchFailed? &&
      Retry.Settle(script.At(call.attempts - 1)) == Err(call.result.error.cause)
  {
    var trace := Retry.Run(script);
    var result := match trace.result
      case Ok(env) => Ok(NormalizeResponse(env))
      case Err(e) => Err(FetchFailed(e));
    var sent := if frequency.Some? then frequency.value else SeriesDataFrequency;
    Call(Some(BuildRequest(c, route, series, start, end, sent, today)),
         trace.attempts, trace.waits, result)
  }

  /** The frequency used for a named series: the caller's when truthy,
      otherwise the registry default. */
  function ResolveFrequency(frequency: Option<string>, default: string): (f: string)
    ensures Truthy(frequency) ==> f == frequency.value
    ensures !Truthy(frequency) ==> f == default
    ensures f == default || frequency == Some(f)
    ensures default != "" ==> f != ""
  {
    if Truthy(frequency) then frequency.value else default
  }

  /** Python's `repr` of a list of strings, without escaping quote characters inside the names. */
  function ListRepr(items: seq<string>): string {
    "[" + QuotedItems(items) + "]"
  }

  function QuotedItems(items: seq<string>): string {
    if |items| == 0 then ""
    else if |items| == 1 then "'" + items[0] + "'"
    else "'" + items[0] + "', " + QuotedItems(items[1..])
  }

  function UnknownSeriesMessage(name: string): string {
    "Unknown series: " + name + ". Available: " + ListRepr(Registry.Names(Registry.SeriesMap))
  }

  /** `get_price_data`: an unregistered name is rejected before any request;
      a registered one is fetched with its route and series id and the
      resolved frequency. */
  function GetPriceData(c: Client, name: string, start: Option<Date>, end: Option<Date>,
                        frequency: Option<string>, today: Date,
                        script: Retry.Script<Envelope>): (call: Call)
    ensures Registry.Lookup(name).None? ==>
      call.request.None? && call.attempts == 0 && call.waits == [] &&
      call.result.Err? && call.result.error.UnknownSeries? &&
      Text.StartsWith(Message(call.result.error), "Unknown series: " + name)
    ensures Registry.Lookup(name).Some? ==>
      var e := Registry.Lookup(name).value;
      call == GetSeriesData(c, e.route, e.seriesId, start, end,
                            Some(ResolveFrequency(frequency, e.frequency)), today, script)
  {
    match Registry.Lookup(name)
    case None =>
      var m := UnknownSeriesMessage(name);
      assert m[..|"Unknown series: " + name|] == "Unknown series: " + name;
      Call(None, 0, [], Err(UnknownSeries(m)))
    case Some(e) =>
      GetSeriesData(c, e.route, e.seriesId, start, end,
                    Some(ResolveFrequency(frequency, e.frequency)), today, script)
  }

  /** The request a registered series sends: its registry route and id, and
      the caller's frequency unless that is absent or empty. */
  lemma PriceRequestFields(c: Client, name: string, start: Option<Date>, end: Option<Date>,
                           frequency: Option<string>, today: Date, script: Retry.Script<Envelope>)
    requires Registry.Lookup(name).Some?
    ensures var e := Registry.Lookup(name).value;
      var q := GetPriceData(c, name, start, end, frequency, today, script).request;
      && q.Some?
      && RouteOf(q.value.url) == Some(e.route)
      && q.value.facetSeries == [e.seriesId]
      && q.value.frequency == (if Truthy(frequency) then frequency.value else e.frequency)
  {
  }

  /** A named series never sends an empty or unknown frequency: a caller's
      frequency that is absent, empty or one of the dashboard's options
      resolves to one of those options, the registry default standing in
      for an absent or empty one. */
  lemma ResolvedFrequencyIsOffered(c: Client, name: string, start: Option<Date>, end: Option<Date>,
                                   frequency: Option<string>, today: Date,
                                   script: Retry.Script<Envelope>)
    requires Registry.Lookup(name).Some?
    requires frequency.None? || frequency.value == "" || frequency.value in Registry.FrequencyOptions
    ensures var q := GetPriceData(c, name, start, end, frequency, today, script).request;
      && q.Some?
      && q.value.frequency in Registry.FrequencyOptions
      && (!Truthy(frequency) ==> q.value.frequency == Registry.Lookup(name).value.frequency)
  {
    var e := Registry.Lookup(name).value;
    Registry.EntriesWellFormed();
    assert e in Registry.SeriesMap;
    PriceRequestFields(c, name, start, end, frequency, today, script);
  }

  /** The dict `results` after storing the tables of the first `i` calls in
      order (`results[name] = df`). A failed call would store nothing, but
      the batch stops at its first failure and never stores past it. */
  function Collect(names: seq<string>, calls: seq<Call>, i: nat): map<string, Table>
    requires i <= |names| && i <= |calls|
  {
    if i == 0 then map[]
    else
      match calls[i - 1].result
      case Ok(table) => Collect(names, calls, i - 1)[names[i - 1] := table]
      case Err(_) => Collect(names, calls, i - 1)
  }

  /** Every name stored so far is a key of the dict, and a repeated name
      holds the table of its last occurrence. */
  lemma {:induction false} CollectLastWrites(names: seq<string>, calls: seq<Call>, i: nat)
    requires i <= |names| && i <= |calls|
    requires forall j :: 0 <= j < i ==> calls[j].result.Ok?
    ensures forall n :: n in Collect(names, calls, i) <==> n in names[..i]
    ensures forall j :: 0 <= j < i && names[j] !in names[j + 1..i] ==>
      Collect(names, calls, i)[names[j]] == calls[j].result.value
  {
    if i > 0 {
      var k := i - 1;
      CollectLastWrites(names, calls, k);
      var before := Collect(names, calls, k);
      var after := Collect(names, calls, i);
      assert after == before[names[k] := calls[k].result.value];
      assert names[..i] == names[..k] + [names[k]];
      forall j | 0 <= j < i && names[j] !in names[j + 1..i]
        ensures names[j] in after && after[names[j]] == calls[j].result.value
      {
        assert names[..i][j] == names[j];
        if j < k {
          assert names[..k][j] == names[j];
          assert names[j + 1..i] == names[j + 1..k] + [names[k]];
        }
      }
    }
  }

  /** What a batch of calls on `names` returns, given the calls it made:
      at most one call per name; success exactly when every name was
      called and every call succeeded, in which case the dict's keys are
      the names and a repeated name holds the table of its last occurrence;
      otherwise the error of the last call made, every earlier call having
      succeeded. */
  predicate BatchOutcome(names: seq<string>, calls: seq<Call>,
                         result: Result<map<string, Table>, ClientError>) {
    && |calls| <= |names|
    && (result.Ok? <==> |calls| == |names| && forall i :: 0 <= i < |calls| ==> calls[i].result.Ok?)
    && (result.Ok? ==> result.value.Keys == set n | n in names)
    && (result.Ok? ==> forall i :: 0 <= i < |names| && names[i] !in names[i + 1..] ==>
          result.value[names[i]] == calls[i].result.value)
    && (result.Err? ==>
          && |calls| > 0
          && calls[|calls| - 1].result == Err(result.error)
          && forall i :: 0 <= i < |calls| - 1 ==> calls[i].result.Ok?)
  }

  /** The batch stops at the i-th call, the first to fail. */
  lemma BatchStops(names: seq<string>, calls: seq<Call>, i: nat)
    requires i < |names| && |calls| == i + 1
    requires forall j :: 0 <= j < i ==> calls[j].result.Ok?
    requires calls[i].result.Err?
    ensures BatchOutcome(names, calls, Err(calls[i].result.error))
  {
  }

  /** The batch completes: every call succeeded. */
  lemma BatchCompletes(names: seq<string>, calls: seq<Call>)
    requires |calls| == |names|
    requires forall j :: 0 <= j < |calls| ==> calls[j].result.Ok?
    ensures BatchOutcome(names, calls, Ok(Collect(names, calls, |names|)))
  {
    CollectLastWrites(names, calls, |names|);
    assert names[..|names|] == names;
  }

  /** Calls `fetch` on each name in order, the i-th call being
      `fetch(names[i], i)`, stopping at the first failure; when none fails,
      the tables are collected in a dict, a repeated name keeping its last
      table. */
  method CallEach(names: seq<string>, fetch: (string, nat) -> Call)
    returns (calls: seq<Call>, result: Result<map<string, Table>, ClientError>)
    ensures BatchOutcome(names, calls, result)
    ensures forall i :: 0 <= i < |calls| ==> calls[i] == fetch(names[i], i)
  {
    calls := [];
    var i := 0;
    while i < |names|
      invariant 0 <= i <= |names|
      invariant |calls| == i
      invariant forall j :: 0 <= j < i ==> calls[j] == fetch(names[j], j)
      invariant forall j :: 0 <= j < i ==> calls[j].result.Ok?
    {
      var call := fetch(names[i], i);
      calls := calls + [call];
      if call.result.Err? {
        BatchStops(names, calls, i);
        return calls, Err(call.result.error);
      }
      i := i + 1;
    }
    BatchCompletes(names, calls);
    return calls, Ok(Collect(names, calls, i));
  }

  /** `get_multiple_series`: `get_price_data` for each name in order with the
      same arguments, the i-th call answered by `network(i)`. The first
      failure aborts the batch; otherwise the dict maps every name to its
      table, a repeated name keeping its last fetch. */
  method GetMultipleSeries(c: Client, names: seq<string>, start: Option<Date>, end: Option<Date>,
                           frequency: Option<string>, today: Date,
                           network: nat -> Retry.Script<Envelope>)
    returns (calls: seq<Call>, result: Result<map<string, Table>, ClientError>)
    ensures BatchOutcome(names, calls, result)
    ensures forall i :: 0 <= i < |calls| ==>
      calls[i] == GetPriceData(c, names[i], start, end, frequency, today, network(i))
  {
    var fetch := (n: string, i: nat) => GetPriceData(c, n, start, end, frequency, today, network(i));
    calls, result := CallEach(names, fetch);
    forall i | 0 <= i < |calls|
      ensures calls[i] == GetPriceData(c, names[i], start, end, frequency, today, network(i))
    {
      assert calls[i] == fetch(names[i], i);
    }
  }
}

=== FILE: frequency_cache.dfy ===
/** The dashboard's per-selection memory of frequencies the API rejected:
    the cache is keyed by the sorted tuple of selected series, the frequency
    picker offers only the options not recorded for the current key (or all
    of them again, clearing the record, once every option is recorded), and a
    fetch failure whose message looks like a bad request records the chosen
    frequency. */
module FrequencyCache {
  import Sorting
  import Text
  import Registry
  import Retry
  import EiaClient

  /** `tuple(sorted(selected_series))`. */
  type SeriesKey = seq<string>

  /** `st.session_state.frequency_cache`. */
  type Cache = map<SeriesKey, set<string>>

  /** The cache key: the selection in ascending string order. */
  function KeyOf(selected: seq<string>): (k: SeriesKey)
    ensures multiset(k) == multiset(selected)
    ensures Sorting.SortedBy(k, Text.StrLe)
  {
    Text.StrLeIsTotalOrder();
    Sorting.SortByIsSorted(selected, Text.StrLe);
    Sorting.SortBy(selected, Text.StrLe)
  }

  /** Two selections share a cache entry exactly when they pick the same
      series the same number of times, in whatever order. */
  lemma KeyIgnoresSelectionOrder(a: seq<string>, b: seq<string>)
    ensures KeyOf(a) == KeyOf(b) <==> multiset(a) == multiset(b)
  {
    if multiset(a) == multiset(b) {
      Text.StrLeIsTotalOrder();
      Sorting.SortedIsUnique(KeyOf(a), KeyOf(b), Text.StrLe);
    }
  }

  /** `frequency_cache.get(key, set())`. */
  function Disabled(cache: Cache, key: SeriesKey): set<string> {
    if key in cache then cache[key] else {}
  }

  /** `[f for f in options if f not in disabled]`: the options outside
      `disabled`, in their original order. */
  function Without(options: seq<string>, disabled: set<string>): (r: seq<string>)
    ensures forall f :: f in r <==> f in options && f !in disabled
    ensures |r| <= |options|
  {
    if |options| == 0 then []
    else
      var rest := Without(options[1..], disabled);
      assert forall f :: f in options <==> f == options[0] || f in options[1..];
      if options[0] in disabled then rest else [options[0]] + rest
  }

  /** Filtering by nothing keeps the options as they are. */
  lemma {:induction false} WithoutNothing(options: seq<string>)
    ensures Without(options, {}) == options
  {
    if |options| > 0 {
      WithoutNothing(options[1..]);
      assert options == [options[0]] + options[1..];
    }
  }

  /** The filter keeps the options' order: its result is a subsequence. */
  predicate IsSubsequence(a: seq<string>, b: seq<string>)
    decreases |b|
  {
    |a| == 0 || (|b| > 0 && ((a[0] == b[0] && IsSubsequence(a[1..], b[1..])) || IsSubsequence(a, b[1..])))
  }

  lemma {:induction false} WithoutKeepsOrder(options: seq<string>, disabled: set<string>)
    ensures IsSubsequence(Without(options, disabled), options)
    decreases |options|
  {
    if |options| > 0 {
      WithoutKeepsOrder(options[1..], disabled);
      var r := Without(options, disabled);
      if options[0] !in disabled {
        assert r[1..] == Without(options[1..], disabled);
      }
    }
  }

  /** Every sequence is a subsequence of itself. */
  lemma {:induction false} SubsequenceOfItself(s: seq<string>)
    ensures IsSubsequence(s, s)
    decreases |s|
  {
    if |s| > 0 {
      SubsequenceOfItself(s[1..]);
    }
  }

  /** What the picker offers, and the cache after the reset rule. */
  datatype Availability = Availability(frequencies: seq<string>, cache: Cache)

  /** The picker's options for `selected`: every frequency not recorded for
      its key, in the fixed option order (so the picker's default, its first
      entry, is the earliest unrecorded option); when that leaves nothing,
      all options again, and the key's record is emptied. Never empty. */
  function AvailableFrequencies(cache: Cache, selected: seq<string>): (a: Availability)
    ensures |a.frequencies| > 0
    ensures forall f :: f in a.frequencies ==> f in Registry.FrequencyOptions
    ensures IsSubsequence(a.frequencies, Registry.FrequencyOptions)
    ensures (exists f :: f in Registry.FrequencyOptions && f !in Disabled(cache, KeyOf(selected))) ==>
      && a.cache == cache
      && a.frequencies == Without(Registry.FrequencyOptions, Disabled(cache, KeyOf(selected)))
      && forall f :: f in a.frequencies <==>
           f in Registry.FrequencyOptions && f !in Disabled(cache, KeyOf(selected))
    ensures (forall f :: f in Registry.FrequencyOptions ==> f in Disabled(cache, KeyOf(selected))) ==>
      && a.frequencies == Registry.FrequencyOptions
      && a.cache == cache[KeyOf(selected) := {}]
  {
    var key := KeyOf(selected);
    var available := Without(Registry.FrequencyOptions, Disabled(cache, key));
    if |available| == 0 then
      SubsequenceOfItself(Registry.FrequencyOptions);
      Availability(Registry.FrequencyOptions, cache[key := {}])
    else
      assert available[0] in available;
      WithoutKeepsOrder(Registry.FrequencyOptions, Disabled(cache, key));
      Availability(available, cache)
  }

  /** The handler's test on `str(e)`: "400" occurs somewhere in the
      message, or "bad request" occurs somewhere in its lower-cased form. */
  function IsBadRequestMessage(message: string): (b: bool)
    ensures b <==> (exists i :: Text.OccursAt(message, "400", i)) ||
                   (exists i :: Text.OccursAt(Text.Lower(message), "bad request", i))
  {
    Text.ContainsIffOccurs(message, "400");
    Text.ContainsIffOccurs(Text.Lower(message), "bad request");
    Text.Contains(message, "400") || Text.Contains(Text.Lower(message), "bad request")
  }

  /** The fetch failure handler: a bad-request-looking failure adds the
      chosen frequency to the selection's record; any other failure leaves
      the cache alone. No other key is ever touched. */
  function RecordFailure(cache: Cache, selected: seq<string>, frequency: string,
                         message: string): (c: Cache)
    ensures IsBadRequestMessage(message) ==>
      && KeyOf(selected) in c
      && c[KeyOf(selected)] == Disabled(cache, KeyOf(selected)) + {frequency}
    ensures !IsBadRequestMessage(message) ==> c == cache
    ensures forall k :: k != KeyOf(selected) ==>
      (k in c <==> k in cache) && (k in c ==> c[k] == cache[k])
  {
    if IsBadRequestMessage(message) then
      var key := KeyOf(selected);
      cache[key := Disabled(cache, key) + {frequency}]
    else cache
  }

  /** After a bad request is recorded, the same selection, in any order, no
      longer offers that frequency, unless the record now covers every
      option, in which case the picker resets and offers it again. */
  lemma RecordedFrequencyIsHidden(cache: Cache, selected: seq<string>, frequency: string,
                                  message: string, reordered: seq<string>)
    requires IsBadRequestMessage(message)
    requires multiset(reordered) == multiset(selected)
    ensures var after := RecordFailure(cache, selected, frequency, message);
      frequency in AvailableFrequencies(after, reordered).frequencies <==>
        frequency in Registry.FrequencyOptions &&
        forall f :: f in Registry.FrequencyOptions ==> f in Disabled(after, KeyOf(selected))
  {
    KeyIgnoresSelectionOrder(reordered, selected);
    var after := RecordFailure(cache, selected, frequency, message);
    var key := KeyOf(selected);
    assert frequency in Disabled(after, key);
    if !forall f :: f in Registry.FrequencyOptions ==> f in Disabled(after, key) {
      var g :| g in Registry.FrequencyOptions && g !in Disabled(after, key);
      assert g in Registry.FrequencyOptions && g !in Disabled(after, KeyOf(reordered));
    }
  }

  /** A failure in another selection never changes what this one offers. */
  lemma OtherSelectionsUnaffected(cache: Cache, selected: seq<string>, frequency: string,
                                  message: string, other: seq<string>)
    requires multiset(other) != multiset(selected)
    ensures AvailableFrequencies(RecordFailure(cache, selected, frequency, message), other).frequencies
         == AvailableFrequencies(cache, other).frequencies
  {
    KeyIgnoresSelectionOrder(other, selected);
    assert Disabled(RecordFailure(cache, selected, frequency, message), KeyOf(other))
        == Disabled(cache, KeyOf(other));
  }

  lemma LowerBadRequestPrefix()
    ensures Text.Lower(Retry.BadRequestPrefix) == "bad request" + " to eia api: "
  {
  }

  /** The client's bad-request message, whatever the body, passes the
      handler's test. */
  lemma BadRequestMessageIsRecognised(body: string)
    ensures IsBadRequestMessage(Retry.BadRequestPrefix + body)
  {
    var rest := " to eia api: " + Text.Lower(body);
    Text.LowerAppend(Retry.BadRequestPrefix, body);
    LowerBadRequestPrefix();
    assert Text.Lower(Retry.BadRequestPrefix + body) == "bad request" + rest;
    Text.PrefixIsContained("bad request", rest);
  }

  /** The client's rejection of a request with status 400 is always caught
      by the handler's test, whatever the response body says. */
  lemma BadRequestErrorsAreRecorded<P>(a: Retry.Attempt<P>)
    requires a.RequestError? && a.status == 400
    ensures Retry.Settle(a).Err?
    ensures IsBadRequestMessage(EiaClient.Message(EiaClient.FetchFailed(Retry.Settle(a).error)))
  {
    assert EiaClient.Message(EiaClient.FetchFailed(Retry.Settle(a).error)) == Retry.BadRequestPrefix + a.body;
    BadRequestMessageIsRecognised(a.body);
  }
}

=== FILE: normalize.dfy ===
/** Turning a decoded API response into the two-column (date, value) table
    `get_series_data` returns. */
module Normalize {
  import opened Wrappers
  import Sorting

  /** A calendar date as a day number (days since 1970-01-01). */
  type Date = int

  /** A record's `value` field as decoded from JSON: a number (or a numeric
      string), some other text, or JSON null. */
  datatype RawValue = Numeric(number: real) | NonNumeric(text: string) | Null

  /** One element of `response.data`; fields other than `period` and
      `value` are dropped by the normalisation and not modelled. */
  datatype RawRecord = RawRecord(period: Date, value: RawValue)

  /** The decoded JSON body: no `response` key, a `response` without `data`,
      or the `data` record list. */
  datatype Envelope = NoResponse | NoData | Records(records: seq<RawRecord>)

  /** A row of the result table: its `date` and `value` columns, a value
      that did not parse being missing (NaN). */
  datatype Row = Row(date: Date, value: Option<real>)

  type Table = seq<Row>

  /** The rename of `period` to `date` and `pd.to_numeric(..., errors="coerce")`
      on `value`, record by record: a number is kept, anything else becomes
      missing. */
  function ToRow(r: RawRecord): Row {
    Row(r.period, if r.value.Numeric? then Some(r.value.number) else None)
  }

  function ToRows(records: seq<RawRecord>): (rows: seq<Row>)
    ensures |rows| == |records|
    ensures forall i :: 0 <= i < |records| ==> rows[i] == ToRow(records[i])
  {
    seq(|records|, i requires 0 <= i < |records| => ToRow(records[i]))
  }

  predicate DateLe(a: Row, b: Row) {
    a.date <= b.date
  }

  lemma DateLeIsTotalPreorder()
    ensures Sorting.Total(DateLe) && Sorting.Transitive(DateLe)
  {
  }

  /** The table built from a response. No envelope, no `data`, or an empty
      record list give the empty table; otherwise every record becomes one
      row (nothing dropped, nothing merged) and the rows are in ascending date
      order. Rows sharing a date are all kept, in an unspecified order. */
  function NormalizeResponse(env: Envelope): (t: Table)
    ensures !env.Records? || |env.records| == 0 ==> t == []
    ensures env.Records? ==> multiset(t) == multiset(ToRows(env.records))
    ensures env.Records? ==> |t| == |env.records|
    ensures Sorting.SortedBy(t, DateLe)
  {
    match env
    case NoResponse => []
    case NoData => []
    case Records(records) =>
      if |records| == 0 then []
      else
        DateLeIsTotalPreorder();
        Sorting.SortByIsSorted(ToRows(records), DateLe);
        Sorting.SortBy(ToRows(records), DateLe)
  }

  /** Every record appears in the table, a value that does not parse as a
      number becoming missing rather than dropping the row; and every row
      comes from some record. */
  lemma RecordsAreKept(records: seq<RawRecord>)
    ensures forall i :: 0 <= i < |records| ==> ToRow(records[i]) in NormalizeResponse(Records(records))
    ensures forall i :: 0 <= i < |records| && !records[i].value.Numeric? ==>
      Row(records[i].period, None) in NormalizeResponse(Records(records))
    ensures forall row :: row in NormalizeResponse(Records(records)) ==>
      exists i :: 0 <= i < |records| && row == ToRow(records[i])
  {
    var t := NormalizeResponse(Records(records));
    var rows := ToRows(records);
    forall i | 0 <= i < |records| ensures ToRow(records[i]) in t {
      assert rows[i] in multiset(rows);
    }
    forall row | row in t ensures exists i :: 0 <= i < |records| && row == ToRow(records[i]) {
      assert row in multiset(rows);
      var i :| 0 <= i < |rows| && rows[i] == row;
    }
  }

  /** Two records for the same date both survive: the client does not
      deduplicate dates. */
  lemma DuplicateDatesAreKept(records: seq<RawRecord>, i: nat, j: nat)
    requires i < j < |records|
    requires records[i].period == records[j].period
    ensures ToRow(records[i]) in NormalizeResponse(Records(records))
    ensures ToRow(records[j]) in NormalizeResponse(Records(records))
    ensures ToRow(records[i]) == ToRow(records[j]) ==>
      multiset(NormalizeResponse(Records(records)))[ToRow(records[i])] >= 2
  {
    var rows := ToRows(records);
    assert rows[i] in multiset(rows) && rows[j] in multiset(rows);
    Sorting.RepeatedValueCount(rows, i, j);
  }

  /** The two-record response of the client's success test gives two rows,
      the earlier date first with value 75.50. */
  lemma TwoRecordExample(d: Date)
    ensures NormalizeResponse(Records([RawRecord(d, Numeric(75.50)), RawRecord(d + 1, Numeric(76.25))]))
      == [Row(d, Some(75.50)), Row(d + 1, Some(76.25))]
  {
    var a, b := Row(d, Some(75.50)), Row(d + 1, Some(76.25));
    var rows := ToRows([RawRecord(d, Numeric(75.50)), RawRecord(d + 1, Numeric(76.25))]);
    assert rows == [a, b];
    assert rows[1..] == [b];
    assert Sorting.SortBy([b], DateLe) == [b];
  }

  /** A response whose record list is empty is an empty table, not an error. */
  lemma EmptyDataExample()
    ensures NormalizeResponse(Records([])) == []
  {
  }
}

=== FILE: pivot.dfy ===
/** The dashboard's data table: the non-empty tables of the selected series
    stacked into one long table tagged by series name, then pivoted to one
    row per date (newest first) and one column per series (in string order),
    each cell holding the first present value for its date and series. */
module Pivot {
  import opened Wrappers
  import Sorting
  import Text
  import opened Normalize

  /** A row of the stacked table: a table row tagged with its series. */
  datatype LongRow = LongRow(date: Date, series: string, value: Option<real>)

  /** One line of the pivot: a date and the value of each series that has
      one on that date. */
  datatype PivotRow = PivotRow(date: Date, cells: map<string, real>)

  datatype PivotTable = PivotTable(columns: seq<string>, rows: seq<PivotRow>)

  /** `df.copy()` with a `series` column set to `name`. */
  function Tag(name: string, t: Table): (r: seq<LongRow>)
    ensures |r| == |t|
    ensures forall i :: 0 <= i < |t| ==> r[i] == LongRow(t[i].date, name, t[i].value)
  {
    seq(|t|, i requires 0 <= i < |t| => LongRow(t[i].date, name, t[i].value))
  }

  /** The loop building `combined_df`: for each selected series in order,
      its table's rows if it has any. A row is in the result exactly when
      its series is selected and its date and value form a row of that
      series' table; the result is empty exactly when every selected table
      is. */
  function Combine(selected: seq<string>, data: map<string, Table>): (r: seq<LongRow>)
    requires forall n :: n in selected ==> n in data
    ensures forall row :: row in r <==>
      row.series in selected && Row(row.date, row.value) in data[row.series]
    ensures |r| == 0 <==> forall n :: n in selected ==> |data[n]| == 0
  {
    if |selected| == 0 then []
    else
      var name := selected[0];
      var t := data[name];
      var rest := Combine(selected[1..], data);
      assert forall n :: n in selected <==> n == name || n in selected[1..];
      var tagged := Tag(name, t);
      assert forall row :: row in tagged <==> row.series == name && Row(row.date, row.value) in t by {
        forall row: LongRow | row.series == name && Row(row.date, row.value) in t
          ensures row in tagged
        {
          var i :| 0 <= i < |t| && t[i] == Row(row.date, row.value);
          assert tagged[i] == row;
        }
      }
      if |t| == 0 then rest else tagged + rest
  }

  /** The stacked row carries a value for `date` and `series`. */
  predicate Matches(row: LongRow, date: Date, series: string) {
    row.date == date && row.series == series && row.value.Some?
  }

  /** `aggfunc='first'` on one (date, series) group: the value of the
      earliest row of the group that has one, None when none has. */
  function FirstValue(rows: seq<LongRow>, date: Date, series: string): Option<real> {
    if |rows| == 0 then None
    else if Matches(rows[0], date, series) then rows[0].value
    else FirstValue(rows[1..], date, series)
  }

  /** The aggregated value is absent exactly when no row of the group has a
      value; otherwise it is the value of a row of the group that has one,
      with no such row before it. */
  lemma {:induction false} FirstValueIsFirstMatch(rows: seq<LongRow>, date: Date, series: string)
    ensures FirstValue(rows, date, series).None? <==>
      forall i :: 0 <= i < |rows| ==> !Matches(rows[i], date, series)
    ensures FirstValue(rows, date, series).Some? ==>
      exists i :: 0 <= i < |rows| && Matches(rows[i], date, series) &&
                  rows[i].value == FirstValue(rows, date, series) &&
                  forall j :: 0 <= j < i ==> !Matches(rows[j], date, series)
  {
    if |rows| > 0 && !Matches(rows[0], date, series) {
      FirstValueIsFirstMatch(rows[1..], date, series);
      assert forall i :: 1 <= i < |rows| ==> rows[i] == rows[1..][i - 1];
      if FirstValue(rows, date, series).Some? {
        var k :| 0 <= k < |rows[1..]| && Matches(rows[1..][k], date, series) &&
          rows[1..][k].value == FirstValue(rows, date, series) &&
          forall j :: 0 <= j < k ==> !Matches(rows[1..][j], date, series);
        assert Matches(rows[k + 1], date, series);
      }
    }
  }

  /** The first present value on `date` in one series' own table: absent
      exactly when no row on that date has a value, and otherwise the value
      of such a row with none before it. */
  function FirstInTable(t: Table, date: Date): (r: Option<real>)
    ensures r.None? <==> forall i :: 0 <= i < |t| ==> !(t[i].date == date && t[i].value.Some?)
    ensures r.Some? ==> exists i :: 0 <= i < |t| && t[i].date == date && t[i].value == r &&
                                    forall j :: 0 <= j < i ==> !(t[j].date == date && t[j].value.Some?)
  {
    if |t| == 0 then None
    else if t[0].date == date && t[0].value.Some? then t[0].value
    else
      assert forall i :: 1 <= i < |t| ==> t[i] == t[1..][i - 1];
      var r := FirstInTable(t[1..], date);
      if r.Some? then
        var k :| 0 <= k < |t[1..]| && t[1..][k].date == date && t[1..][k].value == r &&
                 forall j :: 0 <= j < k ==> !(t[1..][j].date == date && t[1..][j].value.Some?);
        assert t[k + 1].date == date && t[k + 1].value == r;
        r
      else r
  }

  lemma {:induction false} FirstValueAppend(a: seq<LongRow>, b: seq<LongRow>, date: Date, series: string)
    ensures FirstValue(a + b, date, series) ==
      if FirstValue(a, date, series).Some? then FirstValue(a, date, series) else FirstValue(b, date, series)
  {
    if |a| > 0 {
      assert (a + b)[1..] == a[1..] + b;
      FirstValueAppend(a[1..], b, date, series);
    } else {
      assert a + b == b;
    }
  }

  lemma {:induction false} FirstValueOfTag(name: string, t: Table, date: Date, series: string)
    ensures FirstValue(Tag(name, t), date, series) == if name == series then FirstInTable(t, date) else None
  {
    if |t| > 0 {
      FirstValueOfTag(name, t[1..], date, series);
      assert Tag(name, t)[1..] == Tag(name, t[1..]);
    }
  }

  /** A cell of the stacked table's pivot comes from its own series' table:
      the first value that table has for the date, however the series are
      ordered or repeated in the selection. */
  lemma {:induction false} CellComesFromOwnTable(selected: seq<string>, data: map<string, Table>,
                                                 date: Date, series: string)
    requires forall n :: n in selected ==> n in data
    ensures FirstValue(Combine(selected, data), date, series) ==
      if series in selected then FirstInTable(data[series], date) else None
  {
    if |selected| > 0 {
      var name := selected[0];
      var t := data[name];
      CellComesFromOwnTable(selected[1..], data, date, series);
      FirstValueOfTag(name, t, date, series);
      if |t| > 0 {
        FirstValueAppend(Tag(name, t), Combine(selected[1..], data), date, series);
      }
      assert series in selected <==> series == name || series in selected[1..];
    }
  }

  predicate DateGe(a: Date, b: Date) {
    a >= b
  }

  lemma DateGeIsTotalOrder()
    ensures Sorting.Total(DateGe) && Sorting.Transitive(DateGe) && Sorting.Antisymmetric(DateGe)
  {
  }

  /** The rows that carry a value, in their original order. */
  function Present(rows: seq<LongRow>): (r: seq<LongRow>)
    ensures forall row :: row in r <==> row in rows && row.value.Some?
  {
    if |rows| == 0 then []
    else
      assert forall row :: row in rows <==> row == rows[0] || row in rows[1..];
      if rows[0].value.Some? then [rows[0]] + Present(rows[1..]) else Present(rows[1..])
  }

  /** Dropping the rows without a value changes no group's first value. */
  lemma {:induction false} FirstValueOfPresent(rows: seq<LongRow>, date: Date, series: string)
    ensures FirstValue(Present(rows), date, series) == FirstValue(rows, date, series)
  {
    if |rows| > 0 {
      FirstValueOfPresent(rows[1..], date, series);
      if rows[0].value.Some? {
        assert Present(rows)[1..] == Present(rows[1..]);
      }
    }
  }

  lemma {:induction false} PresentIsIdempotent(rows: seq<LongRow>)
    ensures Present(Present(rows)) == Present(rows)
  {
    if |rows| > 0 {
      PresentIsIdempotent(rows[1..]);
      if rows[0].value.Some? {
        assert Present(rows)[1..] == Present(rows[1..]);
      }
    }
  }

  /** Some stacked row gives a value on `date`. */
  predicate HasValueOn(rows: seq<LongRow>, date: Date) {
    exists row :: row in rows && row.date == date && row.value.Some?
  }

  /** Some stacked row gives a value for `series`. */
  predicate HasValueFor(rows: seq<LongRow>, series: string) {
    exists row :: row in rows && row.series == series && row.value.Some?
  }

  function Dates(rows: seq<LongRow>): (r: seq<Date>)
    ensures forall d :: d in r <==> exists row :: row in rows && row.date == d
  {
    var r := seq(|rows|, i requires 0 <= i < |rows| => rows[i].date);
    forall row | row in rows ensures row.date in r {
      var i :| 0 <= i < |rows| && rows[i] == row;
      assert r[i] == row.date;
    }
    r
  }

  function SeriesNames(rows: seq<LongRow>): (r: seq<string>)
    ensures forall s :: s in r <==> exists row :: row in rows && row.series == s
  {
    var r := seq(|rows|, i requires 0 <= i < |rows| => rows[i].series);
    forall row | row in rows ensures row.series in r {
      var i :| 0 <= i < |rows| && rows[i] == row;
      assert r[i] == row.series;
    }
    r
  }

  /** The pivot's columns: every series with a value, in string order, once. */
  function Columns(rows: seq<LongRow>): (r: seq<string>)
    ensures Sorting.SortedBy(r, Text.StrLe) && Sorting.NoDuplicates(r)
    ensures forall s :: s in r <==> HasValueFor(rows, s)
  {
    Text.StrLeIsTotalOrder();
    Sorting.SortedDistinct(SeriesNames(Present(rows)), Text.StrLe)
  }

  /** The pivot's index: every date with a value, strictly newest first. */
  function RowDates(rows: seq<LongRow>): (r: seq<Date>)
    ensures forall i, j :: 0 <= i < j < |r| ==> r[i] > r[j]
    ensures forall d :: d in r <==> HasValueOn(rows, d)
  {
    DateGeIsTotalOrder();
    var r := Sorting.SortedDistinct(Dates(Present(rows)), DateGe);
    assert forall i, j :: 0 <= i < j < |r| ==> r[i] >= r[j] && r[i] != r[j];
    r
  }

  /** A line's cells are exactly the series whose group for the line's date
      has a value, each holding that group's first value. */
  ghost predicate CellsAreFirstValues(rows: seq<LongRow>, line: PivotRow) {
    forall s ::
      && (s in line.cells <==> FirstValue(rows, line.date, s).Some?)
      && (s in line.cells ==> Some(line.cells[s]) == FirstValue(rows, line.date, s))
  }

  /** One pivot line: the cell of a series is present exactly when its group
      for `date` has a value, and holds that group's first value. */
  function MakeRow(rows: seq<LongRow>, date: Date): (r: PivotRow)
    ensures r.date == date
    ensures forall s :: s in r.cells <==> FirstValue(rows, date, s).Some?
    ensures forall s :: s in r.cells ==> Some(r.cells[s]) == FirstValue(rows, date, s)
    ensures CellsAreFirstValues(rows, r)
  {
    var names := SeriesNames(rows);
    forall s | FirstValue(rows, date, s).Some? ensures s in names {
      FirstValueIsFirstMatch(rows, date, s);
      var i :| 0 <= i < |rows| && Matches(rows[i], date, s);
      assert rows[i] in rows;
    }
    PivotRow(date, map s | s in names && FirstValue(rows, date, s).Some? :: FirstValue(rows, date, s).value)
  }

  /** The dates of the pivot's lines, top to bottom. */
  function LineDates(lines: seq<PivotRow>): seq<Date> {
    seq(|lines|, k requires 0 <= k < |lines| => lines[k].date)
  }

  /** One pivot line per date, in the given order. */
  function Lines(rows: seq<LongRow>, dates: seq<Date>): (lines: seq<PivotRow>)
    ensures |lines| == |dates| && LineDates(lines) == dates
    ensures forall k :: 0 <= k < |lines| ==> lines[k] == MakeRow(rows, dates[k])
    ensures forall k :: 0 <= k < |lines| ==> CellsAreFirstValues(rows, lines[k])
  {
    var lines := seq(|dates|, k requires 0 <= k < |dates| => MakeRow(rows, dates[k]));
    assert LineDates(lines) == dates;
    lines
  }

  /** `pivot_table(index='date', columns='series', values='value',
      aggfunc='first')` then `sort_index(ascending=False)`. A (date, series)
      group with no value is dropped, so a date or series appears only when
      some row gives it a value. The columns are the series with a value, in
      string order, each once; the lines are the dates with a value, strictly
      newest first; a cell is present exactly when its group has a value,
      and holds the group's first value. */
  function PivotRows(rows: seq<LongRow>): (p: PivotTable)
    ensures Sorting.SortedBy(p.columns, Text.StrLe) && Sorting.NoDuplicates(p.columns)
    ensures forall s :: s in p.columns <==> HasValueFor(rows, s)
    ensures forall i, j :: 0 <= i < j < |p.rows| ==> p.rows[i].date > p.rows[j].date
    ensures forall d :: d in LineDates(p.rows) <==> HasValueOn(rows, d)
    ensures forall k :: 0 <= k < |p.rows| ==> CellsAreFirstValues(rows, p.rows[k])
  {
    var dates := RowDates(rows);
    var lines := Lines(rows, dates);
    assert forall k :: 0 <= k < |lines| ==> lines[k].date == dates[k];
    PivotTable(Columns(rows), lines)
  }

  /** A pivot line depends on the stacked rows only through the groups'
      first values. */
  lemma SameFirstValuesSameRow(a: seq<LongRow>, b: seq<LongRow>, date: Date)
    requires forall s :: FirstValue(a, date, s) == FirstValue(b, date, s)
    ensures MakeRow(a, date) == MakeRow(b, date)
  {
    var p, q := MakeRow(a, date).cells, MakeRow(b, date).cells;
    forall s ensures (s in p <==> s in q) && (s in p ==> p[s] == q[s]) {
      assert FirstValue(a, date, s) == FirstValue(b, date, s);
    }
    assert p == q;
  }

  /** Rows without a value never show in the pivot: dropping them first
      gives the same table. */
  lemma PivotIgnoresMissing(rows: seq<LongRow>)
    ensures PivotRows(Present(rows)) == PivotRows(rows)
  {
    PresentIsIdempotent(rows);
    var p, q := PivotRows(Present(rows)), PivotRows(rows);
    assert |p.rows| == |q.rows|;
    forall k | 0 <= k < |q.rows| ensures p.rows[k] == q.rows[k] {
      var d := q.rows[k].date;
      forall s ensures FirstValue(Present(rows), d, s) == FirstValue(rows, d, s) {
        FirstValueOfPresent(rows, d, s);
      }
      SameFirstValuesSameRow(Present(rows), rows, d);
    }
  }

  /** The "Raw Data" tab's table: None ("No data available to display")
      when every selected table is empty, otherwise the pivot of the stacked
      tables. */
  function DataTable(selected: seq<string>, data: map<string, Table>): (r: Option<PivotTable>)
    requires forall n :: n in selected ==> n in data
    ensures r.None? <==> forall n :: n in selected ==> |data[n]| == 0
    ensures r.Some? ==> r.value == PivotRows(Combine(selected, data))
  {
    var combined := Combine(selected, data);
    if |combined| == 0 then None else Some(PivotRows(combined))
  }

  /** Every cell of the data table is the first value its series' own table
      has for the row's date, and every such value has its cell. */
  lemma DataTableCells(selected: seq<string>, data: map<string, Table>, k: nat, series: string)
    requires forall n :: n in selected ==> n in data
    requires DataTable(selected, data).Some?
    requires k < |DataTable(selected, data).value.rows|
    ensures var row := DataTable(selected, data).value.rows[k];
      && (series in row.cells <==> series in selected && FirstInTable(data[series], row.date).Some?)
      && (series in row.cells ==> Some(row.cells[series]) == FirstInTable(data[series], row.date))
  {
    CellComesFromOwnTable(selected, data, DataTable(selected, data).value.rows[k].date, series);
  }

  /** Two WTI prices on 2024-01-01 (day 19723) and one on 2024-01-02. */
  const ExampleRows: seq<LongRow> :=
    [LongRow(19723, "WTI", Some(75.0)), LongRow(19723, "WTI", Some(75.5)),
     LongRow(19724, "WTI", Some(76.0))]

  lemma ExampleFirstValues()
    ensures forall s :: FirstValue(ExampleRows, 19724, s) == if s == "WTI" then Some(76.0) else None
    ensures forall s :: FirstValue(ExampleRows, 19723, s) == if s == "WTI" then Some(75.0) else None
  {
    var rows := ExampleRows;
    forall s ensures FirstValue(rows, 19724, s) == if s == "WTI" then Some(76.0) else None {
      assert FirstValue(rows[2..], 19724, s) == if s == "WTI" then Some(76.0) else None;
      assert FirstValue(rows[1..], 19724, s) == FirstValue(rows[1..][1..], 19724, s);
      assert rows[1..][1..] == rows[2..];
    }
    forall s ensures FirstValue(rows, 19723, s) == if s == "WTI" then Some(75.0) else None {
      assert FirstValue(rows[2..], 19723, s) == None;
      assert FirstValue(rows[1..], 19723, s) == if s == "WTI" then Some(75.5) else FirstValue(rows[1..][1..], 19723, s);
      assert rows[1..][1..] == rows[2..];
    }
  }

  /** Lines strictly newest first whose dates are exactly `a` and `b`, with
      `a` the later, are two: `a`'s line, then `b`'s. */
  lemma TwoDayLines(lines: seq<PivotRow>, a: Date, b: Date)
    requires a > b
    requires forall i, j :: 0 <= i < j < |lines| ==> lines[i].date > lines[j].date
    requires forall d :: d in LineDates(lines) <==> d == a || d == b
    ensures |lines| == 2 && lines[0].date == a && lines[1].date == b
  {
    var ds := LineDates(lines);
    assert a in ds && b in ds;
    var i :| 0 <= i < |ds| && ds[i] == a;
    var k :| 0 <= k < |ds| && ds[k] == b;
    assert ds[0] in ds;
    assert lines[0].date >= lines[i].date;
    assert 0 < k && ds[1] in ds;
    assert lines[1].date == b;
    // The last line's date is `a` or `b` yet no later than `b`: it is the second line.
    assert ds[|ds| - 1] in ds;
  }

  /** The example has values on exactly two days. */
  lemma ExampleDates()
    ensures forall d :: HasValueOn(ExampleRows, d) <==> d == 19724 || d == 19723
  {
    var rows := ExampleRows;
    forall d ensures HasValueOn(rows, d) <==> d == 19724 || d == 19723 {
      if HasValueOn(rows, d) {
        var row :| row in rows && row.date == d && row.value.Some?;
        assert row == rows[0] || row == rows[1] || row == rows[2];
      }
      assert rows[0] in rows && rows[2] in rows;
    }
  }

  /** Stacked rows with values on exactly two days pivot to lines that
      start with the later day and include the earlier one. */
  lemma TwoDayPivot(rows: seq<LongRow>, a: Date, b: Date)
    requires a > b
    requires forall d :: HasValueOn(rows, d) <==> d == a || d == b
    ensures |PivotRows(rows).rows| == 2
    ensures PivotRows(rows).rows[0].date == a && PivotRows(rows).rows[1].date == b
  {
    TwoDayLines(PivotRows(rows).rows, a, b);
  }

  lemma SingleSeriesCells(rows: seq<LongRow>, line: PivotRow, name: string, v: real)
    requires CellsAreFirstValues(rows, line)
    requires forall s :: FirstValue(rows, line.date, s) == if s == name then Some(v) else None
    ensures line == PivotRow(line.date, map[name := v])
  {
    assert forall s :: s in line.cells <==> s == name;
    assert line.cells.Keys == {name};
  }

  /** A line whose date has a value for one series only holds just that
      series' first value. */
  lemma SingleSeriesLine(rows: seq<LongRow>, k: nat, date: Date, name: string, v: real)
    requires k < |PivotRows(rows).rows| && PivotRows(rows).rows[k].date == date
    requires forall s :: FirstValue(rows, date, s) == if s == name then Some(v) else None
    ensures PivotRows(rows).rows[k] == PivotRow(date, map[name := v])
  {
    SingleSeriesCells(rows, PivotRows(rows).rows[k], name, v);
  }

  /** The example's newest day is the top line, and its repeated day has
      one line, which keeps the day's first price. */
  lemma DuplicateDateExample()
    ensures |PivotRows(ExampleRows).rows| == 2
    ensures PivotRows(ExampleRows).rows[0] == PivotRow(19724, map["WTI" := 76.0])
    ensures PivotRows(ExampleRows).rows[1] == PivotRow(19723, map["WTI" := 75.0])
  {
    ExampleDates();
    TwoDayPivot(ExampleRows, 19724, 19723);
    ExampleFirstValues();
    SingleSeriesLine(ExampleRows, 0, 19724, "WTI", 76.0);
    SingleSeriesLine(ExampleRows, 1, 19723, "WTI", 75.0);
  }
}

=== FILE: registry.dfy ===
/** The static series registry (`EIAClient.SERIES_MAP`): logical series name
    to upstream route, series identifier, default frequency and description. */
module Registry {
  import opened Wrappers
  import Sorting

  datatype SeriesEntry = SeriesEntry(
    name: string,
    route: string,
    seriesId: string,
    frequency: string,
    description: string)

  /** The registry in the source's declaration order (a Python dict keeps
      insertion order, which the "Available: [...]" message and the series
      picker both show). */
  const SeriesMap: seq<SeriesEntry> := [
    SeriesEntry("WTI Crude Oil Spot Price", "petroleum/pri/spt", "RWTC", "daily",
      "Cushing, OK WTI Spot Price FOB (Dollars per Barrel)"),
    SeriesEntry("Brent Crude Oil Spot Price", "petroleum/pri/spt", "RBRTE", "daily",
      "Europe Brent Spot Price FOB (Dollars per Barrel)"),
    SeriesEntry("NY Harbor Conventional Gasoline", "petroleum/pri/spt", "EER_EPMRU_PF4_Y35NY_DPG", "daily",
      "New York Harbor Conventional Gasoline Regular Spot Price (Dollars per Gallon)"),
    SeriesEntry("U.S. Regular Gasoline Price", "petroleum/pri/gnd", "EMD_EPD2D_PTE_NUS_DPG", "daily",
      "U.S. Regular All Formulations Retail Gasoline Prices (Dollars per Gallon)"),
    SeriesEntry("U.S. Diesel Price", "petroleum/pri/gnd", "EMD_EPD2DXL0_PTE_NUS_DPG", "daily",
      "U.S. No 2 Diesel Retail Prices (Dollars per Gallon)"),
    SeriesEntry("Heating Oil NY Harbor", "petroleum/pri/spt", "EER_EPD2F_PF4_Y35NY_DPG", "daily",
      "New York Harbor No. 2 Heating Oil Spot Price (Dollars per Gallon)"),
    SeriesEntry("Natural Gas Henry Hub", "natural-gas/pri/fut", "RNGC1", "daily",
      "Henry Hub Natural Gas Spot Price (Dollars per Million Btu)"),
    SeriesEntry("Propane Mont Belvieu", "petroleum/pri/spt", "EER_EPLLPA_PF4_Y44MB_DPG", "daily",
      "Mont Belvieu, TX Propane Spot Price (Dollars per Gallon)")
  ]

  /** The frequencies the dashboard offers (app.py `frequency_options`). */
  const FrequencyOptions: seq<string> := ["daily", "weekly", "monthly", "annual"]

  function Names(entries: seq<SeriesEntry>): seq<string> {
    seq(|entries|, i requires 0 <= i < |entries| => entries[i].name)
  }

  predicate WellFormed(e: SeriesEntry) {
    e.name != "" && e.route != "" && e.seriesId != "" && e.frequency != "" && e.description != ""
  }

  /** The entry registered under `name`, if any (`name in SERIES_MAP`,
      `SERIES_MAP[name]`). */
  function Find(entries: seq<SeriesEntry>, name: string): (r: Option<SeriesEntry>)
    ensures r.None? <==> name !in Names(entries)
    ensures r.Some? ==> r.value in entries && r.value.name == name
  {
    if |entries| == 0 then None
    else
      assert Names(entries) == [entries[0].name] + Names(entries[1..]);
      if entries[0].name == name then Some(entries[0])
      else Find(entries[1..], name)
  }

  function Lookup(name: string): Option<SeriesEntry> {
    Find(SeriesMap, name)
  }

  /** `get_available_series`: the registry itself, whose every entry is fully
      populated, offers a dashboard frequency by default, and whose names are
      distinct and include the two crude benchmarks. */
  function AvailableSeries(): (r: seq<SeriesEntry>)
    ensures |r| == 8
    ensures forall e :: e in r ==> WellFormed(e) && e.frequency in FrequencyOptions
    ensures Sorting.NoDuplicates(Names(r))
    ensures "WTI Crude Oil Spot Price" in Names(r) && "Brent Crude Oil Spot Price" in Names(r)
    ensures forall e :: e in r ==> Lookup(e.name).Some? && Lookup(e.name).value == e
  {
    RegistryIsWellFormed();
    SeriesMap
  }

  lemma RegistryIsWellFormed()
    ensures forall e :: e in SeriesMap ==> WellFormed(e) && e.frequency in FrequencyOptions
    ensures Sorting.NoDuplicates(Names(SeriesMap))
    ensures "WTI Crude Oil Spot Price" in Names(SeriesMap) && "Brent Crude Oil Spot Price" in Names(SeriesMap)
    ensures forall e :: e in SeriesMap ==> Lookup(e.name) == Some(e)
  {
    EntriesWellFormed();
    NamesDistinct();
    BenchmarksRegistered();
    LookupFindsEveryEntry();
  }

  lemma BenchmarksRegistered()
    ensures "WTI Crude Oil Spot Price" in Names(SeriesMap) && "Brent Crude Oil Spot Price" in Names(SeriesMap)
  {
    RegistryNames();
    var names := Names(SeriesMap);
    assert names[0] == "WTI Crude Oil Spot Price" && names[1] == "Brent Crude Oil Spot Price";
  }

  /** Every registered entry is what looking up its own name returns. */
  lemma LookupFindsEveryEntry()
    ensures forall e :: e in SeriesMap ==> Lookup(e.name) == Some(e)
  {
    NamesDistinct();
    forall e | e in SeriesMap ensures Lookup(e.name) == Some(e) {
      var i :| 0 <= i < |SeriesMap| && SeriesMap[i] == e;
      FindFirst(SeriesMap, i);
    }
  }

  lemma EntriesWellFormed()
    ensures forall e :: e in SeriesMap ==> WellFormed(e) && e.frequency in FrequencyOptions
  {
    forall i | 0 <= i < |SeriesMap|
      ensures WellFormed(SeriesMap[i]) && SeriesMap[i].frequency == FrequencyOptions[0]
    {
    }
  }

  lemma NamesDistinct()
    ensures Sorting.NoDuplicates(Names(SeriesMap))
  {
    RegistryNames();
    var names := Names(SeriesMap);
    forall i, j | 0 <= i < j < |names| ensures names[i] != names[j] {
      assert |names[i]| != |names[j]| || names[i][0] != names[j][0];
    }
  }

  lemma RegistryNames()
    ensures Names(SeriesMap) == [
      "WTI Crude Oil Spot Price", "Brent Crude Oil Spot Price", "NY Harbor Conventional Gasoline",
      "U.S. Regular Gasoline Price", "U.S. Diesel Price", "Heating Oil NY Harbor",
      "Natural Gas Henry Hub", "Propane Mont Belvieu"]
  {
  }

  /** With distinct names, looking up the name of the i-th entry finds that entry. */
  lemma {:induction false} FindFirst(entries: seq<SeriesEntry>, i: nat)
    requires i < |entries|
    requires Sorting.NoDuplicates(Names(entries))
    ensures Find(entries, entries[i].name) == Some(entries[i])
  {
    if i > 0 {
      assert Names(entries)[0] != Names(entries)[i];
      assert Names(entries[1..]) == Names(entries)[1..];
      FindFirst(entries[1..], i - 1);
    }
  }
}

=== FILE: retry.dfy ===
/** The retry loop of `get_series_data`, as a fold over a script that gives
    the outcome each attempt would have. Sleeping becomes a recorded list of
    waits. */
module Retry {
  import opened Wrappers

  const MaxRetries: nat := 3
  const TimeoutSeconds: nat := 180
  const BadRequestPrefix: string := "Bad request to EIA API: "

  /** What one `requests.get` + `raise_for_status` produced. `RequestError`
      is a `RequestException` carrying a response with the given status code
      and body; `message` is the exception's text. */
  datatype Attempt<P> =
    | Delivered(payload: P)
    | Timeout(message: string)
    | RequestError(status: int, body: string, message: string)

  /** The outcome each of the three possible attempts would have; the
      loop reads an outcome only for an attempt it makes. */
  datatype Script<P> = Script(first: Attempt<P>, second: Attempt<P>, third: Attempt<P>) {
    function At(k: nat): Attempt<P>
      requires k < MaxRetries
    {
      if k == 0 then first else if k == 1 then second else third
    }
  }

  /** The exceptions `get_series_data` lets escape. */
  datatype FetchError =
    | TimedOut(message: string)
    | BadRequestError(message: string)
    | RequestFailed(status: int, message: string)

  /** The run of the loop: how it ended, how many requests it issued and the
      seconds slept between them, in order. */
  datatype Trace<P> = Trace(result: Result<P, FetchError>, attempts: nat, waits: seq<nat>)

  /** Outcomes after which the loop tries again if attempts remain. */
  predicate Retryable<P>(a: Attempt<P>) {
    a.Timeout? || (a.RequestError? && a.status != 400)
  }

  /** How an attempt ends the call when it is the last one made: a delivered
      payload is returned; a timeout re-raises itself; a status-400 error
      becomes the bad-request error carrying the response body, and any other
      status re-raises the original error. A retryable attempt never settles
      as a success or as a bad request. */
  function Settle<P>(a: Attempt<P>): (r: Result<P, FetchError>)
    ensures r.Ok? <==> a.Delivered?
    ensures r.Ok? ==> r.value == a.payload
    ensures a.Timeout? ==> r == Err(TimedOut(a.message))
    ensures a.RequestError? ==> (r.Err? && (r.error.BadRequestError? <==> a.status == 400))
    ensures a.RequestError? && a.status == 400 ==> r.error.message == BadRequestPrefix + a.body
    ensures a.RequestError? && a.status != 400 ==> r == Err(RequestFailed(a.status, a.message))
    ensures Retryable(a) ==> r.Err? && !r.error.BadRequestError?
  {
    match a
    case Delivered(p) => Ok(p)
    case Timeout(m) => Err(TimedOut(m))
    case RequestError(status, body, m) =>
      if status == 400 then Err(BadRequestError(BadRequestPrefix + body))
      else Err(RequestFailed(status, m))
  }

  function Pow2(n: nat): (r: nat)
    ensures r >= 1
  {
    if n == 0 then 1 else 2 * Pow2(n - 1)
  }

  /** The loop from 0-based attempt `attempt` on. The result is settled by the
      first attempt that is not retryable, or by the last attempt allowed; every
      earlier attempt is retryable and is followed by a wait of 2^k seconds. */
  function RunFrom<P>(script: Script<P>, attempt: nat): (t: Trace<P>)
    requires attempt < MaxRetries
    ensures attempt < t.attempts <= MaxRetries
    ensures t.result == Settle(script.At(t.attempts - 1))
    ensures forall k :: attempt <= k < t.attempts - 1 ==> Retryable(script.At(k))
    ensures t.attempts < MaxRetries ==> !Retryable(script.At(t.attempts - 1))
    ensures |t.waits| == t.attempts - 1 - attempt
    ensures forall i :: 0 <= i < |t.waits| ==> t.waits[i] == Pow2(attempt + i)
    decreases MaxRetries - attempt
  {
    match script.At(attempt)
    case Delivered(p) => Trace(Ok(p), attempt + 1, [])
    case Timeout(m) =>
      if attempt < MaxRetries - 1 then
        var rest := RunFrom(script, attempt + 1);
        Trace(rest.result, rest.attempts, [Pow2(attempt)] + rest.waits)
      else
        Trace(Err(TimedOut(m)), attempt + 1, [])
    case RequestError(status, body, m) =>
      if status == 400 then
        Trace(Err(BadRequestError(BadRequestPrefix + body)), attempt + 1, [])
      else if attempt < MaxRetries - 1 then
        var rest := RunFrom(script, attempt + 1);
        Trace(rest.result, rest.attempts, [Pow2(attempt)] + rest.waits)
      else
        Trace(Err(RequestFailed(status, m)), attempt + 1, [])
  }

  /** The whole loop, `for attempt in range(max_retries)`. */
  function Run<P>(script: Script<P>): (t: Trace<P>)
    ensures 1 <= t.attempts <= MaxRetries
    ensures t.waits == [1, 2][..t.attempts - 1]
    ensures t.result == Settle(script.At(t.attempts - 1))
    ensures forall k :: 0 <= k < t.attempts - 1 ==> Retryable(script.At(k))
    ensures t.attempts < MaxRetries ==> !Retryable(script.At(t.attempts - 1))
  {
    var t := RunFrom(script, 0);
    assert Pow2(0) == 1 && Pow2(1) == 2;
    t
  }

  /** The seconds slept in all. */
  function TotalWait(waits: seq<nat>): nat {
    if |waits| == 0 then 0 else waits[0] + TotalWait(waits[1..])
  }

  /** At most three seconds are slept in all and a four-second wait never
      happens: the final failure is re-raised without sleeping. */
  lemma WaitsAreBounded<P>(script: Script<P>)
    ensures TotalWait(Run(script).waits) <= 3
    ensures 4 !in Run(script).waits
    ensures |Run(script).waits| < MaxRetries
  {
    var w := Run(script).waits;
    assert w == [] || w == [1] || w == [1, 2];
  }

  /** Exactly the attempts up to the first decisive one are made, and that
      one settles the call; with no decisive attempt among the three, the
      third attempt's failure is raised. */
  lemma {:induction false} FirstDecisiveAttemptSettles<P>(script: Script<P>, k: nat)
    requires k < MaxRetries
    requires forall j :: 0 <= j < k ==> Retryable(script.At(j))
    requires !Retryable(script.At(k)) || k == MaxRetries - 1
    ensures Run(script).attempts == k + 1
    ensures Run(script).result == Settle(script.At(k))
    ensures |Run(script).waits| == k
  {
  }

  /** A 400 response is raised at once, with its body in the message, on
      whichever attempt it comes: nothing after it is tried or waited for. */
  lemma BadRequestIsNotRetried<P>(script: Script<P>, k: nat)
    requires k < MaxRetries
    requires forall j :: 0 <= j < k ==> Retryable(script.At(j))
    requires script.At(k).RequestError? && script.At(k).status == 400
    ensures Run(script).result == Err(BadRequestError(BadRequestPrefix + script.At(k).body))
    ensures Run(script).attempts == k + 1
    ensures |Run(script).waits| == k
  {
    FirstDecisiveAttemptSettles(script, k);
  }

  /** Two timeouts then a success: three requests, waits of 1s and 2s. */
  lemma TwoTimeoutsThenSuccess<P>(p: P, m1: string, m2: string)
    ensures Run(Script(Timeout(m1), Timeout(m2), Delivered(p))) == Trace(Ok(p), 3, [1, 2])
  {
  }

  /** Three timeouts: the last timeout is raised after exactly three requests. */
  lemma ThreeTimeoutsExhaust<P>(m1: string, m2: string, m3: string)
    ensures Run<P>(Script(Timeout(m1), Timeout(m2), Timeout(m3))) == Trace(Err(TimedOut(m3)), 3, [1, 2])
  {
  }
}

=== FILE: sorting.dfy ===
/** Ordering relations, a functional insertion sort and duplicate removal,
    used wherever the source sorts (pandas `sort_values`, `sort_index`,
    Python `sorted`) or groups values by key. */
module Sorting {

  ghost predicate Total<T(!new)>(le: (T, T) -> bool) {
    forall a, b :: le(a, b) || le(b, a)
  }

  ghost predicate Transitive<T(!new)>(le: (T, T) -> bool) {
    forall a, b, c :: le(a, b) && le(b, c) ==> le(a, c)
  }

  ghost predicate Antisymmetric<T(!new)>(le: (T, T) -> bool) {
    forall a, b :: le(a, b) && le(b, a) ==> a == b
  }

  /** Every element is related by `le` to every later one. */
  predicate SortedBy<T>(s: seq<T>, le: (T, T) -> bool) {
    forall i, j :: 0 <= i < j < |s| ==> le(s[i], s[j])
  }

  predicate NoDuplicates<T(==)>(s: seq<T>) {
    forall i, j :: 0 <= i < j < |s| ==> s[i] != s[j]
  }

  /** Inserts `x` before the first element it is `le` to. */
  function Insert<T>(x: T, s: seq<T>, le: (T, T) -> bool): (r: seq<T>)
    ensures multiset(r) == multiset(s) + multiset{x}
    decreases |s|
  {
    if |s| == 0 then [x]
    else if le(x, s[0]) then [x] + s
    else
      assert s == [s[0]] + s[1..];
      [s[0]] + Insert(x, s[1..], le)
  }

  /** Insertion sort: a permutation of `s`, ordered by `le` when `le` is a
      total preorder (see SortByIsSorted). */
  function SortBy<T>(s: seq<T>, le: (T, T) -> bool): (r: seq<T>)
    ensures multiset(r) == multiset(s)
    ensures |r| == |s|
  {
    if |s| == 0 then []
    else
      assert s == [s[0]] + s[1..];
      Insert(s[0], SortBy(s[1..], le), le)
  }

  lemma {:induction false} InsertIsSorted<T(!new)>(x: T, s: seq<T>, le: (T, T) -> bool)
    requires Total(le) && Transitive(le)
    requires SortedBy(s, le)
    ensures SortedBy(Insert(x, s, le), le)
    decreases |s|
  {
    if |s| == 0 {
    } else if le(x, s[0]) {
      var r := [x] + s;
      forall i, j | 0 <= i < j < |r| ensures le(r[i], r[j]) {
        if i == 0 && j > 1 {
          assert le(s[0], s[j - 1]);
        }
      }
    } else {
      assert le(s[0], x);
      var tail := Insert(x, s[1..], le);
      InsertIsSorted(x, s[1..], le);
      var r := [s[0]] + tail;
      assert Insert(x, s, le) == r;
      forall i, j | 0 <= i < j < |r| ensures le(r[i], r[j]) {
        if i == 0 {
          var y := tail[j - 1];
          assert y in multiset(tail);
          if y != x {
            assert y in multiset(s[1..]);
            var k :| 0 <= k < |s[1..]| && s[1..][k] == y;
            assert s[k + 1] == y;
          }
        } else {
          assert r[i] == tail[i - 1] && r[j] == tail[j - 1];
        }
      }
    }
  }

  lemma {:induction false} SortByIsSorted<T(!new)>(s: seq<T>, le: (T, T) -> bool)
    requires Total(le) && Transitive(le)
    ensures SortedBy(SortBy(s, le), le)
  {
    if |s| > 0 {
      SortByIsSorted(s[1..], le);
      InsertIsSorted(s[0], SortBy(s[1..], le), le);
    }
  }

  /** Two sorted permutations of the same values start with the same value. */
  lemma SortedHeadsAgree<T(!new)>(a: seq<T>, b: seq<T>, le: (T, T) -> bool)
    requires Antisymmetric(le)
    requires SortedBy(a, le) && SortedBy(b, le)
    requires multiset(a) == multiset(b)
    requires |a| > 0 && |b| > 0
    ensures a[0] == b[0]
  {
    assert a[0] in multiset(b);
    var k :| 0 <= k < |b| && b[k] == a[0];
    assert b[0] in multiset(a);
    var m :| 0 <= m < |a| && a[m] == b[0];
    if k > 0 && m > 0 {
      assert le(b[0], b[k]) && le(a[0], a[m]);
    }
  }

  /** Under an antisymmetric order there is only one sorted arrangement of a
      multiset of values. */
  lemma {:induction false} SortedIsUnique<T(!new)>(a: seq<T>, b: seq<T>, le: (T, T) -> bool)
    requires Antisymmetric(le)
    requires SortedBy(a, le) && SortedBy(b, le)
    requires multiset(a) == multiset(b)
    ensures a == b
    decreases |a|
  {
    assert |a| == |multiset(a)| == |multiset(b)| == |b|;
    if |a| > 0 {
      SortedHeadsAgree(a, b, le);
      assert a == [a[0]] + a[1..];
      assert b == [b[0]] + b[1..];
      assert multiset(a) == multiset{a[0]} + multiset(a[1..]);
      assert multiset(b) == multiset{b[0]} + multiset(b[1..]);
      assert multiset(a[1..]) == multiset(a) - multiset{a[0]};
      assert multiset(b[1..]) == multiset(b) - multiset{b[0]};
      SortedIsUnique(a[1..], b[1..], le);
    }
  }

  /** The distinct values of `s`, each exactly once. */
  function Distinct<T(==,!new)>(s: seq<T>): (r: seq<T>)
    ensures forall x :: multiset(r)[x] == if x in s then 1 else 0
  {
    if |s| == 0 then []
    else
      assert s == [s[0]] + s[1..];
      if s[0] in s[1..] then Distinct(s[1..])
      else [s[0]] + Distinct(s[1..])
  }

  /** Two equal entries give their value a count of at least two. */
  lemma RepeatedValueCount<T>(s: seq<T>, i: nat, j: nat)
    requires i < j < |s|
    ensures s[i] == s[j] ==> multiset(s)[s[i]] >= 2
  {
    assert s == s[..j] + s[j..];
    assert multiset(s) == multiset(s[..j]) + multiset(s[j..]);
    assert s[..j][i] == s[i];
    assert s[i] in multiset(s[..j]);
    assert s[j..][0] == s[j];
    assert s[j] in multiset(s[j..]);
  }

  /** A sequence whose every value occurs at most once has distinct entries. */
  lemma SingleCountsNoDuplicates<T(!new)>(s: seq<T>)
    requires forall x :: multiset(s)[x] <= 1
    ensures NoDuplicates(s)
  {
    forall i, j | 0 <= i < j < |s| ensures s[i] != s[j] {
      RepeatedValueCount(s, i, j);
    }
  }

  /** The distinct values of `s` in `le` order, each once. */
  function SortedDistinct<T(==,!new)>(s: seq<T>, le: (T, T) -> bool): (r: seq<T>)
    requires Total(le) && Transitive(le)
    ensures SortedBy(r, le) && NoDuplicates(r)
    ensures forall x :: x in r <==> x in s
  {
    var d := Distinct(s);
    var r := SortBy(d, le);
    SortByIsSorted(d, le);
    SingleCountsNoDuplicates(r);
    assert forall x :: x in r <==> multiset(r)[x] > 0;
    r
  }
}

=== FILE: statistics.dfy ===
/** `calculate_statistics` of the dashboard, over exact reals: the summary
    shown for one series (current, min, max, mean, period change and percent
    change). */
module Statistics {
  import opened Wrappers

  /** Below this magnitude the first value counts as zero and no percent
      change is reported. */
  const Epsilon: real := 0.000000001

  datatype Stats = Stats(current: real, min: real, max: real, mean: real,
                         change: real, changePct: Option<real>)

  function Abs(x: real): real {
    if x < 0.0 then -x else x
  }

  function Sum(s: seq<real>): real {
    if |s| == 0 then 0.0 else s[0] + Sum(s[1..])
  }

  /** The least value: one of the values, and no greater than any. */
  function Min(s: seq<real>): (m: real)
    requires |s| > 0
    ensures m in s
    ensures forall x :: x in s ==> m <= x
  {
    if |s| == 1 then s[0]
    else
      var rest := Min(s[1..]);
      assert s == [s[0]] + s[1..];
      if s[0] <= rest then s[0] else rest
  }

  /** The greatest value: one of the values, and no less than any. */
  function Max(s: seq<real>): (m: real)
    requires |s| > 0
    ensures m in s
    ensures forall x :: x in s ==> x <= m
  {
    if |s| == 1 then s[0]
    else
      var rest := Max(s[1..]);
      assert s == [s[0]] + s[1..];
      if s[0] >= rest then s[0] else rest
  }

  /** A sum of values within [lo, hi] lies within [n*lo, n*hi]. */
  lemma {:induction false} SumBounds(s: seq<real>, lo: real, hi: real)
    requires forall x :: x in s ==> lo <= x <= hi
    ensures (|s| as real) * lo <= Sum(s) <= (|s| as real) * hi
  {
    if |s| > 0 {
      assert s[0] in s;
      forall x | x in s[1..] ensures lo <= x <= hi {
        assert x in s;
      }
      SumBounds(s[1..], lo, hi);
    }
  }

  lemma QuotientBounds(total: real, n: real, lo: real, hi: real)
    requires n > 0.0
    requires n * lo <= total <= n * hi
    ensures lo <= total / n <= hi
  {
    var m := total / n;
    assert total == m * n;
    assert (m - lo) * n == total - n * lo;
    assert (hi - m) * n == n * hi - total;
  }

  /** An average of values within [lo, hi] lies within [lo, hi]. */
  lemma MeanBetween(s: seq<real>, lo: real, hi: real)
    requires |s| > 0
    requires forall x :: x in s ==> lo <= x <= hi
    ensures lo <= Sum(s) / (|s| as real) <= hi
  {
    SumBounds(s, lo, hi);
    QuotientBounds(Sum(s), |s| as real, lo, hi);
  }

  /** The percent change from `base`: `change / base * 100`. */
  function PercentOf(change: real, base: real): (p: real)
    requires base != 0.0
    ensures p * base == 100.0 * change
  {
    assert (change / base) * base == change;
    (change / base) * 100.0
  }

  /** The average of a non-empty series: the value whose n-fold is the sum. */
  function Mean(s: seq<real>): (m: real)
    requires |s| > 0
    ensures m * (|s| as real) == Sum(s)
  {
    Sum(s) / (|s| as real)
  }

  lemma MeanOfTotal(s: seq<real>, total: real)
    requires |s| > 0 && Sum(s) == total
    ensures Mean(s) == total / (|s| as real)
  {
  }

  /** `price_change_pct`: absent when the first value is within epsilon of
      zero, otherwise the change as a percentage of the first value. */
  function PercentChange(first: real, last: real): (p: Option<real>)
    ensures p.None? <==> Abs(first) < Epsilon
    ensures p.Some? ==> p.value * first == 100.0 * (last - first)
  {
    if Abs(first) < Epsilon then None else Some(PercentOf(last - first, first))
  }

  /** None for an empty series. Otherwise `current` is the last value and
      `change` the last minus the first; the percent change is absent exactly
      when the first value is within epsilon of zero, and otherwise scales the
      change by the first value; min and max are attained values bounding every
      value, and the mean is the average, lying between them. */
  function CalculateStatistics(values: seq<real>): (r: Option<Stats>)
    ensures r.None? <==> |values| == 0
    ensures r.Some? ==>
      && r.value.current == values[|values| - 1]
      && r.value.change == values[|values| - 1] - values[0]
      && r.value.changePct == PercentChange(values[0], values[|values| - 1])
    ensures r.Some? ==>
      && r.value.min in values && r.value.max in values
      && (forall x :: x in values ==> r.value.min <= x <= r.value.max)
      && r.value.min <= r.value.current <= r.value.max
      && r.value.min <= r.value.mean <= r.value.max
      && r.value.mean == Mean(values)
  {
    if |values| == 0 then None
    else
      var current := values[|values| - 1];
      var previous := values[0];
      var change := current - previous;
      assert current in values;
      MeanBetween(values, Min(values), Max(values));
      Some(Stats(current, Min(values), Max(values), Mean(values), change, PercentChange(previous, current)))
  }

  /** The ten-day series of the dashboard's statistics test. */
  const TenDays: seq<real> := [100.0, 105.0, 103.0, 108.0, 110.0, 107.0, 112.0, 115.0, 113.0, 118.0]

  lemma TenDaySum()
    ensures Sum(TenDays) == 1091.0
  {
    var s := TenDays;
    assert Sum(s[9..]) == 118.0;
    assert Sum(s[8..]) == 231.0;
    assert Sum(s[7..]) == 346.0;
    assert Sum(s[6..]) == 458.0;
    assert Sum(s[5..]) == 565.0;
    assert Sum(s[4..]) == 675.0;
    assert Sum(s[3..]) == 783.0;
    assert Sum(s[2..]) == 886.0;
    assert Sum(s[1..]) == 991.0;
  }

  lemma TenDayMin()
    ensures Min(TenDays) == 100.0
  {
    var s := TenDays;
    assert s[0] in s;
    assert forall x :: x in s ==> x >= 100.0;
  }

  lemma TenDayMax()
    ensures Max(TenDays) == 118.0
  {
    var s := TenDays;
    assert s[9] in s;
    assert forall x :: x in s ==> x <= 118.0;
  }

  lemma TenDayMean()
    ensures Mean(TenDays) == 109.1
  {
    TenDaySum();
    MeanOfTotal(TenDays, 1091.0);
    assert |TenDays| as real == 10.0;
  }

  /** Current 118, min 100, max 118, mean 109.1, change 18 and an 18% rise. */
  lemma TenDayExample()
    ensures CalculateStatistics(TenDays) == Some(Stats(118.0, 100.0, 118.0, 109.1, 18.0, Some(18.0)))
  {
    TenDayMin();
    TenDayMax();
    TenDayMean();
    assert PercentChange(100.0, 118.0) == Some(18.0);
    assert TenDays[0] == 100.0 && TenDays[|TenDays| - 1] == 118.0;
  }

  /** A series starting at zero has no percent change, however it moves. */
  lemma ZeroStartExample()
    ensures CalculateStatistics([0.0, 50.0, 100.0]).value.changePct == None
    ensures CalculateStatistics([0.0, 50.0, 100.0]).value.change == 100.0
  {
  }
}

=== FILE: text.dfy ===
/** The few string operations the source relies on: Python's ordering of
    `str` values (used by `sorted`), `str.lower` and the `in` substring test. */
module Text {
  import Sorting

  /** Python's `a <= b` on strings: lexicographic by code point, a proper
      prefix sorting first. */
  predicate StrLe(a: string, b: string)
    decreases |a|
  {
    |a| == 0 || (|b| > 0 && (a[0] < b[0] || (a[0] == b[0] && StrLe(a[1..], b[1..]))))
  }

  lemma {:induction false} StrLeTotal(a: string, b: string)
    ensures StrLe(a, b) || StrLe(b, a)
    decreases |a|
  {
    if |a| > 0 && |b| > 0 && a[0] == b[0] {
      StrLeTotal(a[1..], b[1..]);
    }
  }

  lemma {:induction false} StrLeTransitive(a: string, b: string, c: string)
    requires StrLe(a, b) && StrLe(b, c)
    ensures StrLe(a, c)
    decreases |a|
  {
    if |a| > 0 && a[0] == b[0] && b[0] == c[0] {
      StrLeTransitive(a[1..], b[1..], c[1..]);
    }
  }

  lemma {:induction false} StrLeAntisymmetric(a: string, b: string)
    requires StrLe(a, b) && StrLe(b, a)
    ensures a == b
    decreases |a|
  {
    if |a| > 0 {
      StrLeAntisymmetric(a[1..], b[1..]);
      assert a == [a[0]] + a[1..] && b == [b[0]] + b[1..];
    }
  }

  /** String order is a total order, so sorting strings has exactly one result. */
  lemma StrLeIsTotalOrder()
    ensures Sorting.Total(StrLe) && Sorting.Transitive(StrLe) && Sorting.Antisymmetric(StrLe)
  {
    forall a, b ensures StrLe(a, b) || StrLe(b, a) {
      StrLeTotal(a, b);
    }
    forall a, b, c | StrLe(a, b) && StrLe(b, c) ensures StrLe(a, c) {
      StrLeTransitive(a, b, c);
    }
    forall a, b | StrLe(a, b) && StrLe(b, a) ensures a == b {
      StrLeAntisymmetric(a, b);
    }
  }

  /** `str.lower` restricted to ASCII letters. */
  function LowerChar(c: char): char {
    if 'A' <= c <= 'Z' then (c as int + 32) as char else c
  }

  function Lower(s: string): string {
    seq(|s|, i requires 0 <= i < |s| => LowerChar(s[i]))
  }

  lemma LowerAppend(a: string, b: string)
    ensures Lower(a + b) == Lower(a) + Lower(b)
  {
  }

  predicate StartsWith(s: string, prefix: string) {
    |prefix| <= |s| && s[..|prefix|] == prefix
  }

  /** Python's `needle in s`: some suffix of `s` starts with `needle`. */
  predicate Contains(s: string, needle: string)
    decreases |s|
  {
    StartsWith(s, needle) || (|s| > 0 && Contains(s[1..], needle))
  }

  /** `needle` occurs in `s` starting at position `i`. */
  predicate OccursAt(s: string, needle: string, i: int) {
    0 <= i && i + |needle| <= |s| && s[i..i + |needle|] == needle
  }

  /** The recursive search agrees with the positional definition of a substring. */
  lemma {:induction false} ContainsIffOccurs(s: string, needle: string)
    ensures Contains(s, needle) <==> exists i :: OccursAt(s, needle, i)
    decreases |s|
  {
    if StartsWith(s, needle) {
      assert OccursAt(s, needle, 0);
    }
    if |s| > 0 {
      ContainsIffOccurs(s[1..], needle);
      if Contains(s[1..], needle) {
        var i :| OccursAt(s[1..], needle, i);
        assert s[i + 1..i + 1 + |needle|] == s[1..][i..i + |needle|];
        assert OccursAt(s, needle, i + 1);
      }
      if exists i :: OccursAt(s, needle, i) {
        var i :| OccursAt(s, needle, i);
        if i > 0 {
          assert s[1..][i - 1..i - 1 + |needle|] == s[i..i + |needle|];
          assert OccursAt(s[1..], needle, i - 1);
        } else {
          assert StartsWith(s, needle);
        }
      }
    } else {
      if exists i :: OccursAt(s, needle, i) {
        var i :| OccursAt(s, needle, i);
        assert StartsWith(s, needle);
      }
    }
  }

  /** A string contains each of its prefixes. */
  lemma PrefixIsContained(prefix: string, rest: string)
    ensures Contains(prefix + rest, prefix)
  {
    assert (prefix + rest)[..|prefix|] == prefix;
  }
}

=== FILE: wrappers.dfy ===
/** Failure-carrying result types shared by the client and the dashboard model. */
module Wrappers {

  /** A value that may be absent: Python's `None`, or a missing/not-a-number cell. */
  datatype Option<+T> = None | Some(value: T)

  /** The outcome of an operation that can raise: `Ok` is a normal return,
      `Err` carries the exception the Python code would raise. */
  datatype Result<+T, +E> = Ok(value: T) | Err(error: E)
}
